=== FILE: README.md ===
# Journey Diary: trip-tracking core in Dafny

Journey Diary is a mobile-first travel diary. A traveller starts a trip from an
origin, drops named checkpoints while travelling, and stops the trip. When the
trip stops it becomes a completed trip carrying a destination, a transport mode,
a purpose, notes, a distance and a duration in minutes. The rest of the app then
shows those trips in three ways:
- a searchable history grouped by calendar day;
- four statistic tiles on the home screen;
- a running `HH:MM:SS` clock while recording.

This project models that core as pure transitions over immutable data:

- `TripTypes` (`trip_types.dfy`): the `Trip` and `Checkpoint` records, the ten
  transport modes, the eight purposes, and their display labels.
- `TripStore` (`trip_store.dfy`): the trip store. A `Store` holds the list of
  completed trips and an optional active trip. It supports:
  - `startTrip`, `endTrip` and `addCheckpoint`;
  - `updateTrip` and `deleteTrip`;
  - `getTripById`.

  A partial trip (`Partial<Trip>`) is a `TripPatch` that sets some fields; the
  shallow merge `{ ...trip, ...patch }` is `Overlay`. The clock reading and fresh
  ids are parameters of each transition.
- `StoreStats` (`store_stats.dfy`): `getTripStats`. It computes the trip count,
  the distance and duration totals, and the per-mode breakdown, each as a
  left-to-right reduction.
- `TrackTrip` (`track_trip.dfy`): the recording screen. It covers:
  - `formatTime` and a reader for its output;
  - the start, add-checkpoint and stop handlers;
  - the relation between the screen's own checkpoint list and the store's.
- `TripHistory` (`trip_history.dfy`): the history screen. It covers:
  - the case-insensitive search combined with the mode filter;
  - the grouping of the kept trips by day.
- `StatsTiles` (`stats_tiles.dfy`): the home screen's four tiles and how each
  formats its number.
- `Text` and `Seqs` (`text.dfy`, `seqs.dfy`): the JavaScript library behaviour
  the core relies on. `Text` covers decimal rendering, `padStart`, ASCII
  `toLowerCase` and `includes`. `Seqs` covers `Array.prototype.filter`.

Times are integers:
- Clock readings are milliseconds.
- Elapsed recording time is whole seconds.
- Durations are whole minutes.

Coordinates and distances are `real`.

## Model

| member | source | states |
|---|---|---|
| TripTypes.AllModesEnumerates | src/types/trip.ts:27-37 | There are exactly ten transport modes, listed once each. |
| TripTypes.AllPurposesEnumerates | src/types/trip.ts:39-47 | There are exactly eight trip purposes, listed once each. |
| TripTypes.ModeLabelInjective | src/types/trip.ts:49-60 | Every mode has a non-empty label, and two modes share a label only if they are the same mode. |
| TripTypes.PurposeLabelInjective | src/types/trip.ts:62-71 | Every purpose has a non-empty label, and two purposes share a label only if they are the same purpose. |
| TripStore.OverlayEmpty | src/hooks/useTripStore.ts:115 | Merging a patch that sets nothing leaves the trip unchanged. |
| TripStore.OverlayIdempotent | src/hooks/useTripStore.ts:115 | Merging the same patch twice gives the same trip as merging it once. |
| TripStore.OverlayCompose | src/hooks/useTripStore.ts:115 | Two successive merges equal one merge of the combined patch, in which the later patch wins on every field both set. |
| TripStore.StartTrip | src/hooks/useTripStore.ts:66-81 | The new trip has the given id, origin and start time. Its defaults are: mode car, purpose other, empty destination and notes, no checkpoints or photos, no end time, duration or distance, and the active flag set. It becomes the active trip, and the completed list is unchanged. |
| TripStore.RoundMinutes | src/hooks/useTripStore.ts:90 | The minute count is the nearest whole minute to the elapsed milliseconds, with halves rounded up. It is non-negative when the elapsed time is. |
| TripStore.RoundMinutesIsHalfUp | src/hooks/useTripStore.ts:90 | The integer formula equals rounding the real quotient `elapsed / 60000` half-up, which is what `Math.round` does. |
| TripStore.Complete | src/hooks/useTripStore.ts:86-92 | The completed trip's end time is the first clock reading. Its duration is the rounded minutes from the active trip's start to the second clock reading. Its active flag is cleared. |
| TripStore.EndTrip | src/hooks/useTripStore.ts:83-97 | With no active trip, the store is unchanged and nothing is returned. Otherwise the completed trip is returned and prepended to the list, and the active slot is cleared. |
| TripStore.EndTripTakesPatch | src/hooks/useTripStore.ts:86-88 | Every field other than end time, duration and the active flag comes from the patch when the patch sets it, and from the active trip otherwise. |
| TripStore.EndTripIgnoresCompletionFields | src/hooks/useTripStore.ts:88-91 | A patch's end time, duration and active flag have no effect: later spread entries override them. |
| TripStore.EndTripDurationUsesOriginalStart | src/hooks/useTripStore.ts:88-90 | If a patch moves the start time, the stored start time changes but the duration is still measured from the active trip's original start. |
| TripStore.WithId | src/hooks/useTripStore.ts:102-105 | The stored checkpoint has the given id and every other field of the input. |
| TripStore.AddCheckpoint | src/hooks/useTripStore.ts:99-111 | Without an active trip, nothing changes. Otherwise exactly one checkpoint is appended at the end of the active trip's list, the earlier checkpoints are kept, and nothing else in the store changes. |
| TripStore.UpdateTrips | src/hooks/useTripStore.ts:114-116 | Position by position, every trip with the id gets the patch merged in, the others stay as they were, and the length is kept. |
| TripStore.UpdateTrip | src/hooks/useTripStore.ts:113-117 | Applies the update to the completed list and leaves the active trip alone. If no trip has the id, the store is unchanged. |
| TripStore.DeleteTrip | src/hooks/useTripStore.ts:119-121 | The result is an order-preserving subsequence of the list. A trip is in it exactly when it was in the list and has a different id. Every kept trip keeps its multiplicity. The active trip is untouched. |
| TripStore.DeleteMissingIsNoOp | src/hooks/useTripStore.ts:119-121 | Deleting an id that no completed trip has changes nothing. |
| TripStore.FirstIndexOf | src/hooks/useTripStore.ts:124 | The index found holds the id and no earlier trip does. There is no index exactly when no trip has the id. |
| TripStore.GetTripById | src/hooks/useTripStore.ts:123-125 | The lookup returns the first completed trip with the id, or nothing exactly when no completed trip has it. |
| TripStore.LookupIgnoresActive | src/hooks/useTripStore.ts:123-125 | The active trip is not found by its id unless a completed trip shares that id. |
| TripStore.StartTripPreservesWellFormed | src/hooks/useTripStore.ts:66-81 | `startTrip` keeps the lifecycle shape. An active trip is flagged active and has no end time or duration. Completed trips are flagged inactive and have both. |
| TripStore.EndTripPreservesWellFormed | src/hooks/useTripStore.ts:83-97 | `endTrip` keeps the lifecycle shape, whatever patch it is given. |
| TripStore.AddCheckpointPreservesWellFormed | src/hooks/useTripStore.ts:99-111 | `addCheckpoint` keeps the lifecycle shape. |
| TripStore.DeleteTripPreservesWellFormed | src/hooks/useTripStore.ts:119-121 | `deleteTrip` keeps the lifecycle shape. |
| TripStore.UpdateTripPreservesWellFormed | src/hooks/useTripStore.ts:113-117 | `updateTrip` keeps the lifecycle shape when the patch neither sets the active flag nor clears the end time or duration. |
| TripStore.UpdateTripCanReactivate | src/hooks/useTripStore.ts:113-117 | `updateTrip` does not guard its patch: setting the active flag leaves an active trip in the completed list. |
| TripStore.StartThenEnd | src/hooks/useTripStore.ts:66-97 | Ending a freshly started trip with an empty patch yields an inactive trip. It keeps the id, the origin, the start time and the empty destination. It ends at the first reading and lasts the rounded minutes up to the second, zero when measured at the start instant. |
| TripStore.EndThenLookup | src/hooks/useTripStore.ts:94-125 | After `endTrip`, looking up the completed trip's id finds that trip. |
| TripStore.AddCheckpointsAppends | src/hooks/useTripStore.ts:107-110 | Successive `addCheckpoint` calls append their checkpoints in call order, and the completed list stays unchanged. |
| TripStore.StartAddEnd | src/hooks/useTripStore.ts:66-111 | When a trip is started, given checkpoints, and ended with an empty patch, the completed trip carries exactly the added checkpoints, in order. |
| StoreStats.Breakdown | src/hooks/useTripStore.ts:132-135 | A mode is a key of the breakdown exactly when some trip uses it, and its count is the number of trips with that mode. |
| StoreStats.GetTripStats | src/hooks/useTripStore.ts:127-143 | The trip count is the list length, and an empty list gives all-zero figures. The breakdown keys are exactly the modes some trip uses, and each mode's count is the number of trips with that mode. |
| StoreStats.CountModePositive | src/hooks/useTripStore.ts:133 | A mode's count is positive exactly when some trip has that mode. |
| StoreStats.TotalDistancePrepend | src/hooks/useTripStore.ts:129 | The left-to-right distance total of a list headed by `t` is `t`'s distance (zero when absent) plus the rest's total. |
| StoreStats.TotalDurationPrepend | src/hooks/useTripStore.ts:130 | The left-to-right duration total of a list headed by `t` is `t`'s duration (zero when absent) plus the rest's total. |
| StoreStats.CountModePrepend | src/hooks/useTripStore.ts:132-135 | Prepending a trip raises exactly its own mode's count by one. |
| StoreStats.BreakdownSumsToTotal | src/hooks/useTripStore.ts:132-135 | The per-mode counts, summed over all ten modes, equal the trip count. |
| StoreStats.StatsAfterEndTrip | src/hooks/useTripStore.ts:94 | Ending a trip raises the trip count by one, the distance total by the trip's distance, the duration total by its rounded minutes, and its mode's count by one. |
| TrackTrip.SplitSeconds | src/pages/TrackTrip.tsx:50-52 | The split is hours, minutes and seconds with minutes and seconds below 60, and it adds back up to the total. |
| TrackTrip.SplitSecondsUnique | src/pages/TrackTrip.tsx:50-52 | No other split with minutes and seconds below 60 adds up to the same total. |
| TrackTrip.HoursBelow100 | src/pages/TrackTrip.tsx:50 | The hour count is below 100 exactly when the total is below 360000 seconds. |
| TrackTrip.Pad2 | src/pages/TrackTrip.tsx:53 | A padded field is at least two characters long, and exactly two for numbers below 100. |
| TrackTrip.Pad2Content | src/pages/TrackTrip.tsx:53 | A padded field is all digits: the number's decimal digits, preceded only by zeros. |
| TrackTrip.Pad2ReadsBack | src/pages/TrackTrip.tsx:53 | A zero-padded field reads back as its number. |
| TrackTrip.JoinFields | src/pages/TrackTrip.tsx:53 | In `h:mm:ss` the colons sit six and three places from the end, and the three slices between them are the three fields. |
| TrackTrip.FormatClock | src/pages/TrackTrip.tsx:53 | The display is at least eight characters long, exactly eight when the hours are below 100, with colons six and three places from the end. |
| TrackTrip.FormatClockDigits | src/pages/TrackTrip.tsx:53 | With minutes and seconds below 100, every character of the display is a digit except the two colons, six and three places from the end. |
| TrackTrip.FormatClockFields | src/pages/TrackTrip.tsx:53 | The hour, minute and second slices of the display read back as the three fields. |
| TrackTrip.ParseFormatClock | src/pages/TrackTrip.tsx:53 | Reading the display back gives `3600 * hours + 60 * minutes + seconds`. |
| TrackTrip.FormatTime | src/pages/TrackTrip.tsx:49-54 | The display is at least eight characters long, with colons six and three places from the end. |
| TrackTrip.FormatTimeFields | src/pages/TrackTrip.tsx:49-54 | The hour, minute and second fields of the display are the padded parts of the split: whole hours, `(s % 3600) / 60` and `s % 60`, the last two below 60. |
| TrackTrip.FormatTimeDigits | src/pages/TrackTrip.tsx:49-54 | Every character of the display is a decimal digit, except the colons six and three places from the end. |
| TrackTrip.FormatTimeWidth | src/pages/TrackTrip.tsx:49-54 | The display is exactly eight characters wide below 100 hours, and wider from then on. |
| TrackTrip.FormatTimeRoundTrip | src/pages/TrackTrip.tsx:49-54 | Reading the display back gives the elapsed seconds: formatting loses nothing. |
| TrackTrip.OpenPage | src/pages/TrackTrip.tsx:24-34 | The screen records exactly when the store has an active trip. The form is copied from that trip, or defaults to empty text, mode car, purpose work and no checkpoints. The checkpoint inputs start empty and the sheet starts closed. |
| TrackTrip.HandleStartTracking | src/pages/TrackTrip.tsx:56-62 | With an empty origin, nothing changes. Otherwise the store is exactly the one `startTrip` gives for the typed origin, so a trip is active with that origin and no checkpoints. The screen switches to recording, and no other form field changes. |
| TrackTrip.WithoutId | src/pages/TrackTrip.tsx:90 | Handing a checkpoint to the store and filing it under its own id gives back the same checkpoint. |
| TrackTrip.HandleAddCheckpoint | src/pages/TrackTrip.tsx:77-94 | With an empty name, nothing changes. Otherwise one checkpoint at the simulated position is appended to the screen's list and handed to the store. The name and note inputs are cleared, the sheet closes, and the trip form is unchanged. |
| TrackTrip.HandleStopTracking | src/pages/TrackTrip.tsx:64-75 | Recording stops, the active slot is empty afterwards, and no form field changes. Without an active trip the store is unchanged. Otherwise the completed trip is prepended to the list. It keeps the active trip's id, origin, start and photos. It takes the form's destination, mode, purpose and notes, the screen's checkpoint list and the given distance. It ends at the first clock reading and is timed to the second. |
| TrackTrip.OpenPageSynced | src/pages/TrackTrip.tsx:24-30 | On a freshly opened screen, the screen's checkpoint list mirrors the store's active trip. |
| TrackTrip.StartKeepsSynced | src/pages/TrackTrip.tsx:56-62 | Starting from a non-recording screen keeps the two checkpoint lists in step. |
| TrackTrip.AddKeepsSynced | src/pages/TrackTrip.tsx:77-94 | Adding a checkpoint while recording keeps the two lists in step, whatever ids each side assigns. |
| TrackTrip.StopStoresMirroredCheckpoints | src/pages/TrackTrip.tsx:64-72 | Stopping an in-step recording stores the screen's list. It holds the same checkpoints in the same order as the store's active trip, differing at most in ids. |
| TripHistory.ModeChoicesShape | src/pages/TripHistory.tsx:22 | The filter offers "all" first, then exactly car, bus, train, bike, walk and auto, each once. |
| TripHistory.MatchesSearchIff | src/pages/TripHistory.tsx:35-37 | The search holds exactly when the lower-cased query occurs at some position of the lower-cased origin or destination. |
| TripHistory.FilterTrips | src/pages/TripHistory.tsx:34-40 | The kept trips are an order-preserving subsequence. A trip is kept exactly when the query occurs in its origin or destination, case-insensitively, and its mode passes the filter. A kept trip appears as often as in the list, a dropped one not at all. |
| TripHistory.EmptySearchShowsAll | src/pages/TripHistory.tsx:34-40 | An empty query with "all" selected keeps every trip, in order. |
| TripHistory.EmptyStateIff | src/pages/TripHistory.tsx:163 | "No trips found" shows exactly when no trip passes the search and the filter. |
| TripHistory.SearchIgnoresQueryCase | src/pages/TripHistory.tsx:36-37 | Lower-casing the query first does not change the result. |
| TripHistory.GroupIndex | src/pages/TripHistory.tsx:45 | The index found is a group with that day. When there is none, no group has that day. |
| TripHistory.TripsOnDayAppend | src/pages/TripHistory.tsx:48 | A day's trips grow by the new trip exactly when the trip is of that day. |
| TripHistory.GroupStepExisting | src/pages/TripHistory.tsx:48 | Pushing a trip onto its day's existing group keeps the grouping invariant. |
| TripHistory.GroupStepNew | src/pages/TripHistory.tsx:45-48 | Opening a group for a new day keeps the grouping invariant. |
| TripHistory.GroupByDay | src/pages/TripHistory.tsx:43-50 | The days are distinct. Each group holds exactly that day's trips, in list order, and is non-empty. Every trip's day has a group. |
| TripHistory.EachTripInOneGroup | src/pages/TripHistory.tsx:43-50 | Every trip sits in exactly one group: the one for its own day. |
| TripHistory.FirstOfDay | src/pages/TripHistory.tsx:43-50 | The position returned is that of the first trip of the day: no earlier trip falls on it, and the length means no trip does. |
| TripHistory.GroupByDayOrder | src/pages/TripHistory.tsx:43-50 | Every group's day occurs in the list, and the groups are in the order their days first occur. |
| TripHistory.GroupedTrips | src/pages/TripHistory.tsx:34-50 | The screen's groups are a day grouping of exactly the trips the search and mode filter keep. |
| TripHistory.GroupedCountTotal | src/pages/TripHistory.tsx:43-50 | Together the groups hold as many trips as the list they were built from. |
| StatsTiles.Rem60 | src/components/trips/TripStats.tsx:31 | `v % 60` truncates: the remainder is in [0, 60) for non-negative `v`, in (-60, 0] for negative `v`, and differs from `v` by a multiple of 60. |
| StatsTiles.IntToString | src/components/trips/TripStats.tsx:17 | The text starts with a minus sign exactly when the number is negative. What follows the sign is a non-empty run of decimal digits, with no leading zero unless it is "0", that reads back as the number's magnitude. |
| StatsTiles.DurationParts | src/components/trips/TripStats.tsx:31 | For a non-negative total, the hours and the leftover minutes (below 60) add back up to the total. |
| StatsTiles.NegativeDurationParts | src/components/trips/TripStats.tsx:31 | For a negative total, the floored hours and truncated minutes add back up to the total when it is whole hours, and to the total minus 60 otherwise: the parts of a negative total come to one hour short. |
| StatsTiles.DurationText | src/components/trips/TripStats.tsx:31 | The text ends in "m" and starts with a minus sign exactly when the total is negative. A non-negative total shows as digits, "h ", digits and "m", neither number with a leading zero unless it is "0", where the minute digits read below 60 and sixty times the hours plus the minutes is the total. The negative case is stated by `StatsTiles.NegativeDurationText`. |
| StatsTiles.NegativeDurationText | src/components/trips/TripStats.tsx:31 | A negative total shows as "-", hour digits, "h ", the minute field and "m", with no leading zeros. The minute field is "0" on whole hours, where the text reads back as the total. Otherwise the field is "-" and digits, and the text reads back as the total minus 60. |
| StatsTiles.DurationTextReadsBack | src/components/trips/TripStats.tsx:31 | For a non-negative total, the time tile reads back as the total: 60 times the number before "h " plus the number before "m". The minutes take at most two digits. |
| StatsTiles.AvgText | src/components/trips/TripStats.tsx:38 | With no trips the tile shows "0 km". Otherwise it shows the value that, multiplied by the trip count, gives the distance handed in. |
| StatsTiles.Tiles | src/components/trips/TripStats.tsx:11-40 | There are four tiles, in order: trips, distance, time and average, with their captions. The trips tile is the count's decimal text: digits without a leading zero that read back as the count. The average tile is handed the total distance. |
| StatsTiles.TilesForNoTrips | src/components/trips/TripStats.tsx:43-48 | With no completed trips, the tiles show "0", 0.0 km, "0h 0m" and "0 km". |
| StatsTiles.TilesAverage | src/pages/Index.tsx:46-49 | The home screen feeds the tiles the figures of `getTripStats` (src/pages/Index.tsx:15). With trips, the average tile then shows the total distance divided by the trip count, the formula at src/components/trips/TripStats.tsx:43-48. |
| Text.NatToString | src/components/trips/TripStats.tsx:17 | The rendering is non-empty, has no leading zero, and has one digit below 10 and at most two below 100. |
| Text.NatToStringDigits | src/components/trips/TripStats.tsx:17 | The rendering consists of decimal digits only. |
| Text.ParseNatToString | src/components/trips/TripStats.tsx:17 | The rendering reads back as the number. |
| Text.PadStart | src/pages/TrackTrip.tsx:53 | A string already at the width is unchanged. A shorter one grows to exactly the width, and padding never shortens. |
| Text.PadStartContent | src/pages/TrackTrip.tsx:53 | The padded string ends with the original string, and everything before it is the fill character. |
| Text.ParsePaddedNat | src/pages/TrackTrip.tsx:53 | Zero-padding a number's rendering does not change the value it reads back as. |
| Text.Lower | src/pages/TripHistory.tsx:36-37 | Lower-casing keeps the length and maps each character through the ASCII lower-casing of that character. |
| Text.LowerIdempotent | src/pages/TripHistory.tsx:36-37 | Lower-casing an already lower-cased string changes nothing. |
| Text.ContainsIffOccurs | src/pages/TripHistory.tsx:36-37 | `includes` holds exactly when the query occurs at some position of the string. |
| Text.ContainsEmpty | src/pages/TripHistory.tsx:36-37 | Every string includes the empty query. |
| Seqs.Filter | src/hooks/useTripStore.ts:120 | `filter` gives an order-preserving subsequence. A value is in it exactly when it is in the input and passes the test. |
| Seqs.FilterCounts | src/hooks/useTripStore.ts:120 | `filter` keeps every passing value as often as it occurs and drops every failing value. |
| Seqs.FilterAppend | src/pages/TripHistory.tsx:34-40 | Filtering a list extended by one value extends the filtered list by that value exactly when the value passes. |

## Left out

- Persistence: the store lives in memory only, as in the source. The demo trips the store starts with are not modelled; a store is any `Store` value.
- Clock and ids: `Date.now()` and `new Date()` are parameters of each transition (`now`, `id`). `endTrip` reads the clock twice, once for the end time and once for the duration, so `TripStore.EndTrip` takes two readings (`endedAt`, `measuredAt`) and assumes no order between them. The model assumes nothing about two ids differing.
- Random distance: the stop handler's random distance (`Math.random() * 20 + 5`) is a parameter of `TrackTrip.HandleStopTracking`. Its range [5, 25) is not modelled.
- Timer: the one-second timer that advances the elapsed-time counter is left out, along with navigation and the React state plumbing. Each handler is one atomic step over the screen state.
- Shared store: each screen calls `useTripStore()` and so owns its own store instance. The model gives the recording screen its own `Store`, and says nothing about state shared between screens.
- Floating point: distances, coordinates and averages are exact `real`s. `toFixed(1)` rendering is kept abstract: the `Kilometres` tile text stands for the value it shows.
- Day key: the `yyyy-MM-dd` formatting of a trip's start time (date-fns, local time zone) is an abstract `dayKey` function parameter of `TripHistory.GroupByDay`. Groups are kept in first-appearance order (`TripHistory.GroupByDayOrder`), which is the insertion order of the source's record for such keys.
- Text.Lower: lower-cases ASCII letters only, because Unicode case mapping is not modelled.
- Presentation: these parts are presentation only:
  - the map and preview components;
  - the trip cards and the mode and purpose selectors;
  - the home screen's list of its first three trips;
  - the profile screen's achievement thresholds and the trip-details screen;
  - the recording screen's "km traveled" estimate;
  - the icon and colour tables.
- Patches: a patch that sets a required field to `undefined` explicitly cannot be written. The optional fields (end time, duration, distance) may be cleared.
- TrackTrip.FormatTime: the clock value is a non-negative count of seconds. The display of a negative or fractional counter is not modelled, since the timer only ever counts up from zero.

=== FILE: seqs.dfy ===
/** Order-preserving selection over sequences (`Array.prototype.filter`) and
    the subsequence relation it establishes. */
module Seqs {

  /** `a` can be obtained from `b` by deleting elements, keeping the order of
      the rest (checked greedily from the front). */
  predicate IsSubsequence<T(==)>(a: seq<T>, b: seq<T>)
    decreases |b|
  {
    if a == [] then true
    else if b == [] then false
    else if a[0] == b[0] then IsSubsequence(a[1..], b[1..])
    else IsSubsequence(a, b[1..])
  }

  /** The elements of `s` that satisfy `keep`, in their original order. */
  function Filter<T(==, !new)>(s: seq<T>, keep: T -> bool): (r: seq<T>)
    ensures IsSubsequence(r, s)
    ensures forall x :: x in r <==> x in s && keep(x)
    ensures |r| <= |s|
    decreases |s|
  {
    if s == [] then []
    else
      var rest := Filter(s[1..], keep);
      assert s == [s[0]] + s[1..];
      if keep(s[0]) then
        var r := [s[0]] + rest;
        assert r[1..] == rest;
        r
      else
        rest
  }

  /** Each kept value keeps its multiplicity; every other value is gone. */
  lemma {:induction false} FilterCounts<T(!new)>(s: seq<T>, keep: T -> bool)
    ensures forall x :: multiset(Filter(s, keep))[x] == if keep(x) then multiset(s)[x] else 0
    decreases |s|
  {
    if s != [] {
      FilterCounts(s[1..], keep);
      assert s == [s[0]] + s[1..];
    }
  }

  /** When every element is kept, nothing is removed. */
  lemma {:induction false} FilterKeepsAll<T(!new)>(s: seq<T>, keep: T -> bool)
    requires forall i :: 0 <= i < |s| ==> keep(s[i])
    ensures Filter(s, keep) == s
    decreases |s|
  {
    if s != [] {
      FilterKeepsAll(s[1..], keep);
      assert s == [s[0]] + s[1..];
    }
  }

  /** The result is empty exactly when no element is kept. */
  lemma FilterEmptyIff<T(!new)>(s: seq<T>, keep: T -> bool)
    ensures Filter(s, keep) == [] <==> forall i :: 0 <= i < |s| ==> !keep(s[i])
  {
    var r := Filter(s, keep);
    if r != [] {
      assert r[0] in r;
    }
    if exists i :: 0 <= i < |s| && keep(s[i]) {
      var i :| 0 <= i < |s| && keep(s[i]);
      assert s[i] in r;
    }
  }

  /** Selection distributes over appending one element. */
  lemma {:induction false} FilterAppend<T(!new)>(s: seq<T>, x: T, keep: T -> bool)
    ensures Filter(s + [x], keep) == Filter(s, keep) + (if keep(x) then [x] else [])
    decreases |s|
  {
    var t := s + [x];
    if s == [] {
      assert t == [x] && t[1..] == [];
      assert Filter(t, keep) == (if keep(x) then [x] else []) + Filter(t[1..], keep);
    } else {
      assert t[0] == s[0] && t[1..] == s[1..] + [x];
      FilterAppend(s[1..], x, keep);
      assert Filter(t, keep) == (if keep(s[0]) then [s[0]] else []) + Filter(t[1..], keep);
      assert Filter(s, keep) == (if keep(s[0]) then [s[0]] else []) + Filter(s[1..], keep);
    }
  }

  /** Selections with pointwise-equal tests are equal. */
  lemma {:induction false} FilterCongruent<T(!new)>(s: seq<T>, keep1: T -> bool, keep2: T -> bool)
    requires forall i :: 0 <= i < |s| ==> keep1(s[i]) == keep2(s[i])
    ensures Filter(s, keep1) == Filter(s, keep2)
    decreases |s|
  {
    if s != [] {
      FilterCongruent(s[1..], keep1, keep2);
    }
  }
}

=== FILE: stats_tiles.dfy ===
/** The four statistic tiles of the home screen: trip count, distance, time
    and average distance per trip. Decimal rendering with one fractional
    digit (`toFixed(1)`) is kept abstract: a `Kilometres` text stands for the
    value it renders. */
module StatsTiles {
  import opened TripTypes
  import opened Text
  import StoreStats

  datatype TileKey = TripsTile | DistanceTile | DurationTile | AvgTile

  /** What a tile shows: literal text, or a number of kilometres rendered
      with one decimal and the " km" suffix. */
  datatype TileText = Plain(text: string) | Kilometres(value: real)

  datatype Tile = Tile(key: TileKey, caption: string, text: TileText)

  /** JavaScript's `v % 60`: the remainder of truncating division, carrying
      the sign of `v`. */
  function Rem60(v: int): (r: int)
    ensures v >= 0 ==> 0 <= r < 60
    ensures v < 0 ==> -60 < r <= 0
    ensures (v - r) % 60 == 0
  {
    if v >= 0 then v % 60 else -((-v) % 60)
  }

  /** `Number.prototype.toString` on an integer. */
  function IntToString(v: int): (s: string)
    ensures |s| >= 1
    ensures v < 0 <==> s[0] == '-'
    ensures var digits := if v < 0 then s[1..] else s;
      && |digits| >= 1
      && AllDigits(digits)
      && NoLeadingZero(digits)
      && ParseDigits(digits) == if v < 0 then -v else v
  {
    var d := if v >= 0 then v else -v;
    NatToStringDigits(d);
    ParseNatToString(d);
    if v >= 0 then NatToString(v)
    else
      var s := "-" + NatToString(-v);
      assert s[1..] == NatToString(-v);
      s
  }

  /** Hours (`Math.floor(v / 60)`) and leftover minutes (`v % 60`) of a
      number of minutes. */
  function DurationParts(v: int): (r: (int, int))
    ensures v >= 0 ==> r.0 >= 0 && 0 <= r.1 < 60 && r.0 * 60 + r.1 == v
  {
    (v / 60, Rem60(v))
  }

  /** A negative total mixes a floored hour count with a truncated minute
      count, so one that is not a whole number of hours shows one hour short:
      -5 minutes shows as "-1h -5m", which adds up to -65. */
  lemma NegativeDurationParts(v: int)
    requires v < 0
    ensures v % 60 == 0 ==> DurationParts(v).0 * 60 + DurationParts(v).1 == v
    ensures v % 60 != 0 ==> DurationParts(v).0 * 60 + DurationParts(v).1 == v - 60
  {
  }

  /** The time tile's text, `${h}h ${m}m`. */
  function DurationText(v: int): (s: string)
    ensures |s| >= 5 && s[|s| - 1] == 'm'
    ensures v < 0 <==> s[0] == '-'
    ensures v >= 0 ==> exists k :: HoursMinutesAt(s, k, v)
  {
    var (h, m) := DurationParts(v);
    var hs, ms := IntToString(h), IntToString(m);
    var s := hs + "h " + ms + "m";
    assert v >= 0 ==> HoursMinutesAt(s, |hs|, v) by {
      if v >= 0 {
        DurationFields(hs, ms);
        ParseNatToString(h);
        ParseNatToString(m);
        NatToStringDigits(h);
        NatToStringDigits(m);
      }
    }
    s
  }

  /** `s` is `<hours>h <minutes>m` with the "h " at position `k`: decimal digits
      without superfluous leading zeros before it and between it and the final
      "m", reading back as `v` minutes with fewer than 60 in the minute part. */
  predicate HoursMinutesAt(s: string, k: int, v: int) {
    && 0 < k && k + 3 < |s| && s[k..k + 2] == "h " && s[|s| - 1] == 'm'
    && AllDigits(s[..k]) && AllDigits(s[k + 2..|s| - 1])
    && NoLeadingZero(s[..k]) && NoLeadingZero(s[k + 2..|s| - 1])
    && ParseDigits(s[k + 2..|s| - 1]) < 60
    && ParseDigits(s[..k]) * 60 + ParseDigits(s[k + 2..|s| - 1]) == v
  }

  /** For a non-negative total, the time tile reads back as the total:
      sixty times the hours before "h " plus the minutes before "m". */
  lemma DurationTextReadsBack(v: int)
    requires v >= 0
    ensures var (h, m) := DurationParts(v);
      var s := DurationText(v);
      var hs := NatToString(h);
      var ms := NatToString(m);
      && s[..|hs|] == hs && s[|hs|..|hs| + 2] == "h " && s[|hs| + 2..|s| - 1] == ms && s[|s| - 1] == 'm'
      && ParseDigits(s[..|hs|]) * 60 + ParseDigits(s[|hs| + 2..|s| - 1]) == v
      && |ms| <= 2
  {
    var (h, m) := DurationParts(v);
    var hs := NatToString(h);
    var ms := NatToString(m);
    DurationFields(hs, ms);
    ParseNatToString(h);
    ParseNatToString(m);
  }

  /** Where the two numbers sit in `${h}h ${m}m`. */
  lemma DurationFields(hs: string, ms: string)
    ensures var s := hs + "h " + ms + "m";
      && s[..|hs|] == hs && s[|hs|..|hs| + 2] == "h " && s[|hs| + 2..|s| - 1] == ms && s[|s| - 1] == 'm'
  {
    var s := hs + "h " + ms + "m";
    assert s[..|hs|] == hs;
    assert s[|hs|..|hs| + 2] == "h ";
    assert s[|hs| + 2..|s| - 1] == ms;
  }

  /** `s` is `-<hours>h <minutes>m` for the negative total `v`, with the "h "
      at position `k`. The hour count is negative. The minute field is "0" on
      a whole number of hours and a negative number otherwise, and the two
      then add up to `v - 60`, one hour short of the total. */
  predicate NegHoursMinutesAt(s: string, k: int, v: int) {
    && 1 < k && k + 3 < |s| && s[0] == '-' && s[k..k + 2] == "h " && s[|s| - 1] == 'm'
    && AllDigits(s[1..k]) && NoLeadingZero(s[1..k])
    && (v % 60 == 0 ==> s[k + 2..|s| - 1] == "0" && 0 - (ParseDigits(s[1..k]) as int) * 60 == v)
    && (v % 60 != 0 ==>
          && k + 4 < |s| && s[k + 2] == '-'
          && AllDigits(s[k + 3..|s| - 1]) && NoLeadingZero(s[k + 3..|s| - 1])
          && 0 - (ParseDigits(s[1..k]) as int) * 60 - (ParseDigits(s[k + 3..|s| - 1]) as int) == v - 60)
  }

  /** A negative total shows a negative hour count and the truncated minutes:
      -5 shows as "-1h -5m", which reads as -65. */
  lemma NegativeDurationText(v: int)
    requires v < 0
    ensures exists k :: NegHoursMinutesAt(DurationText(v), k, v)
  {
    var (h, m) := DurationParts(v);
    var hs, ms := IntToString(h), IntToString(m);
    var s := DurationText(v);
    assert s == hs + "h " + ms + "m";
    DurationFields(hs, ms);
    NegativeDurationParts(v);
    var k := |hs|;
    assert s[1..k] == hs[1..];
    if v % 60 != 0 {
      assert s[k + 3..|s| - 1] == ms[1..];
    }
    assert NegHoursMinutesAt(s, k, v);
  }

  /** The average tile: distance over trips, or "0 km" when there are no trips,
      so the division never sees a zero divisor. */
  function AvgText(totalDistance: real, totalTrips: int): (r: TileText)
    ensures totalTrips <= 0 ==> r == Plain("0 km")
    ensures totalTrips > 0 ==> r.Kilometres? && r.value * (totalTrips as real) == totalDistance
  {
    if totalTrips > 0 then Kilometres(totalDistance / totalTrips as real) else Plain("0 km")
  }

  /** The tiles, in display order. The average tile is handed the total
      distance and divides it by the trip count. */
  function Tiles(totalTrips: nat, totalDistance: real, totalDuration: int): (r: seq<Tile>)
    ensures |r| == 4
    ensures r[0].key == TripsTile && r[1].key == DistanceTile && r[2].key == DurationTile && r[3].key == AvgTile
    ensures r[0].caption == "Total Trips" && r[1].caption == "Distance" && r[2].caption == "Time" && r[3].caption == "Avg/Trip"
    ensures var count := NatToString(totalTrips);
      r[0].text == Plain(count) && AllDigits(count) && NoLeadingZero(count) && ParseDigits(count) == totalTrips
    ensures r[1].text == Kilometres(totalDistance)
    ensures r[2].text == Plain(DurationText(totalDuration))
    ensures r[3].text == AvgText(totalDistance, totalTrips)
  {
    var count := NatToString(totalTrips);
    ParseNatToString(totalTrips);
    NatToStringDigits(totalTrips);
    [ Tile(TripsTile, "Total Trips", Plain(count)),
      Tile(DistanceTile, "Distance", Kilometres(totalDistance)),
      Tile(DurationTile, "Time", Plain(DurationText(totalDuration))),
      Tile(AvgTile, "Avg/Trip", AvgText(totalDistance, totalTrips)) ]
  }

  /** With no completed trips, every tile shows zero. */
  lemma TilesForNoTrips()
    ensures var st := StoreStats.GetTripStats([]);
      var r := Tiles(st.totalTrips, st.totalDistance, st.totalDuration);
      && r[0].text == Plain("0") && r[1].text == Kilometres(0.0)
      && r[2].text == Plain("0h 0m") && r[3].text == Plain("0 km")
  {
    assert NatToString(0) == "0";
    assert DurationParts(0) == (0, 0);
    assert DurationText(0) == "0" + "h " + "0" + "m";
  }

  /** The home screen feeds the tiles from `getTripStats`: with trips, the
      average tile shows the total distance shared out over the trips. */
  lemma TilesAverage(ts: seq<Trip>)
    requires ts != []
    ensures var st := StoreStats.GetTripStats(ts);
      Tiles(st.totalTrips, st.totalDistance, st.totalDuration)[3].text
        == Kilometres(StoreStats.TotalDistance(ts) / |ts| as real)
  {
    var st := StoreStats.GetTripStats(ts);
    assert st.totalDistance == StoreStats.TotalDistance(ts);
    assert st.totalTrips == |ts|;
  }
}

=== FILE: store_stats.dfy ===
/** `getTripStats`: aggregate figures over the completed trips, each a
    left-to-right reduction over the list. An absent distance or duration
    counts as zero. */
module StoreStats {
  import opened TripTypes
  import TripStore

  datatype TripStats = TripStats(
    totalTrips: nat,
    totalDistance: real,
    totalDuration: int,
    modeBreakdown: map<TripMode, nat>)

  function DistanceOrZero(t: Trip): real {
    t.distance.GetOr(0.0)
  }

  function DurationOrZero(t: Trip): int {
    t.duration.GetOr(0)
  }

  /** Sum of the distances, accumulated from the first trip to the last. */
  function TotalDistance(ts: seq<Trip>): real
    decreases |ts|
  {
    if ts == [] then 0.0 else TotalDistance(ts[..|ts| - 1]) + DistanceOrZero(ts[|ts| - 1])
  }

  /** Sum of the durations, accumulated from the first trip to the last. */
  function TotalDuration(ts: seq<Trip>): int
    decreases |ts|
  {
    if ts == [] then 0 else TotalDuration(ts[..|ts| - 1]) + DurationOrZero(ts[|ts| - 1])
  }

  /** Number of trips recorded with mode `m`. */
  function CountMode(ts: seq<Trip>, m: TripMode): nat
    decreases |ts|
  {
    if ts == [] then 0 else CountMode(ts[..|ts| - 1], m) + (if ts[|ts| - 1].mode == m then 1 else 0)
  }

  /** The count a breakdown records for `m`, absent keys reading as zero. */
  function CountIn(b: map<TripMode, nat>, m: TripMode): nat {
    if m in b then b[m] else 0
  }

  /** The per-mode counts, folded over the trips: a mode becomes a key when
      its first trip is met, and each later trip of that mode adds one. */
  function Breakdown(ts: seq<Trip>): (b: map<TripMode, nat>)
    ensures forall m :: m in b <==> CountMode(ts, m) > 0
    ensures forall m :: CountIn(b, m) == CountMode(ts, m)
    decreases |ts|
  {
    if ts == [] then map[]
    else
      var acc := Breakdown(ts[..|ts| - 1]);
      var m := ts[|ts| - 1].mode;
      acc[m := CountIn(acc, m) + 1]
  }

  /** `getTripStats()` over the completed list. */
  function GetTripStats(ts: seq<Trip>): (r: TripStats)
    ensures r.totalTrips == |ts|
    ensures ts == [] ==> r == TripStats(0, 0.0, 0, map[])
    ensures forall m :: m in r.modeBreakdown <==> exists i :: 0 <= i < |ts| && ts[i].mode == m
    ensures forall m :: CountIn(r.modeBreakdown, m) == CountMode(ts, m)
  {
    forall m ensures CountMode(ts, m) > 0 <==> exists i :: 0 <= i < |ts| && ts[i].mode == m {
      CountModePositive(ts, m);
    }
    TripStats(|ts|, TotalDistance(ts), TotalDuration(ts), Breakdown(ts))
  }

  /** A mode is counted exactly when some trip uses it. */
  lemma {:induction false} CountModePositive(ts: seq<Trip>, m: TripMode)
    ensures CountMode(ts, m) > 0 <==> exists i :: 0 <= i < |ts| && ts[i].mode == m
    decreases |ts|
  {
    if ts != [] {
      var init := ts[..|ts| - 1];
      CountModePositive(init, m);
      if exists i :: 0 <= i < |init| && init[i].mode == m {
        var i :| 0 <= i < |init| && init[i].mode == m;
        assert ts[i].mode == m;
      }
      if exists i :: 0 <= i < |ts| && ts[i].mode == m {
        var i :| 0 <= i < |ts| && ts[i].mode == m;
        if i < |init| {
          assert init[i].mode == m;
        }
      }
    }
  }

  /** The distance total is the first trip's distance plus the rest's total:
      the left-to-right reduction equals the right-to-left sum. */
  lemma {:induction false} TotalDistancePrepend(t: Trip, ts: seq<Trip>)
    ensures TotalDistance([t] + ts) == DistanceOrZero(t) + TotalDistance(ts)
    decreases |ts|
  {
    if ts != [] {
      var all := [t] + ts;
      assert all[..|all| - 1] == [t] + ts[..|ts| - 1];
      TotalDistancePrepend(t, ts[..|ts| - 1]);
    }
  }

  /** The duration total is the first trip's duration plus the rest's total. */
  lemma {:induction false} TotalDurationPrepend(t: Trip, ts: seq<Trip>)
    ensures TotalDuration([t] + ts) == DurationOrZero(t) + TotalDuration(ts)
    decreases |ts|
  {
    if ts != [] {
      var all := [t] + ts;
      assert all[..|all| - 1] == [t] + ts[..|ts| - 1];
      TotalDurationPrepend(t, ts[..|ts| - 1]);
    }
  }

  /** Sum of the counts a breakdown records for the listed modes. */
  function BreakdownTotal(b: map<TripMode, nat>, modes: seq<TripMode>): nat
    decreases |modes|
  {
    if modes == [] then 0 else CountIn(b, modes[0]) + BreakdownTotal(b, modes[1..])
  }

  /** Number of occurrences of `m` in `modes`. */
  function Occurrences(modes: seq<TripMode>, m: TripMode): nat
    decreases |modes|
  {
    if modes == [] then 0 else (if modes[0] == m then 1 else 0) + Occurrences(modes[1..], m)
  }

  lemma {:induction false} OccursOnce(modes: seq<TripMode>, m: TripMode)
    requires Distinct(modes) && m in modes
    ensures Occurrences(modes, m) == 1
    decreases |modes|
  {
    if modes[0] == m {
      NotOccurring(modes[1..], m);
    } else {
      OccursOnce(modes[1..], m);
    }
  }

  lemma {:induction false} NotOccurring(modes: seq<TripMode>, m: TripMode)
    requires m !in modes
    ensures Occurrences(modes, m) == 0
    decreases |modes|
  {
    if modes != [] {
      NotOccurring(modes[1..], m);
    }
  }

  /** Incrementing one key raises the total by the key's occurrences. */
  lemma {:induction false} BreakdownTotalBump(b: map<TripMode, nat>, m: TripMode, modes: seq<TripMode>)
    ensures BreakdownTotal(b[m := CountIn(b, m) + 1], modes) == BreakdownTotal(b, modes) + Occurrences(modes, m)
    decreases |modes|
  {
    if modes != [] {
      BreakdownTotalBump(b, m, modes[1..]);
    }
  }

  /** The per-mode counts add up to the number of trips. */
  lemma {:induction false} BreakdownSumsToTotal(ts: seq<Trip>)
    ensures BreakdownTotal(Breakdown(ts), AllModes) == |ts|
    decreases |ts|
  {
    if ts != [] {
      var init := ts[..|ts| - 1];
      var m := ts[|ts| - 1].mode;
      var b0 := Breakdown(init);
      assert Breakdown(ts) == b0[m := CountIn(b0, m) + 1];
      BreakdownSumsToTotal(init);
      BreakdownTotalBump(b0, m, AllModes);
      AllModesEnumerates();
      OccursOnce(AllModes, m);
    }
  }

  /** Ending a trip adds one trip, its distance and its duration to the
      figures, and one to the count of its mode. */
  lemma StatsAfterEndTrip(s: TripStore.Store, p: TripStore.TripPatch, endedAt: int, measuredAt: int)
    requires s.active.Some?
    ensures
      var (s', c) := TripStore.EndTrip(s, p, endedAt, measuredAt);
      var before := GetTripStats(s.trips);
      var after := GetTripStats(s'.trips);
      && after.totalTrips == before.totalTrips + 1
      && after.totalDistance == before.totalDistance + DistanceOrZero(c.value)
      && after.totalDuration == before.totalDuration + TripStore.RoundMinutes(measuredAt - s.active.value.startTime)
      && CountIn(after.modeBreakdown, c.value.mode) == CountIn(before.modeBreakdown, c.value.mode) + 1
  {
    var (s', c) := TripStore.EndTrip(s, p, endedAt, measuredAt);
    TotalDistancePrepend(c.value, s.trips);
    TotalDurationPrepend(c.value, s.trips);
    CountModePrepend(c.value, s.trips, c.value.mode);
  }

  lemma {:induction false} CountModePrepend(t: Trip, ts: seq<Trip>, m: TripMode)
    ensures CountMode([t] + ts, m) == (if t.mode == m then 1 else 0) + CountMode(ts, m)
    decreases |ts|
  {
    if ts != [] {
      var all := [t] + ts;
      assert all[..|all| - 1] == [t] + ts[..|ts| - 1];
      CountModePrepend(t, ts[..|ts| - 1], m);
    }
  }
}

=== FILE: text.dfy ===
/** String helpers the screens rely on: decimal rendering of whole numbers
    (`Number.prototype.toString` on a non-negative integer), left padding
    (`String.prototype.padStart` with a one-character fill), lower-casing
    restricted to ASCII, and substring search (`String.prototype.includes`). */
module Text {

  predicate IsDigit(c: char) {
    '0' <= c <= '9'
  }

  predicate AllDigits(s: string) {
    forall i :: 0 <= i < |s| ==> IsDigit(s[i])
  }

  function DigitChar(d: nat): (c: char)
    requires d < 10
    ensures IsDigit(c)
  {
    ('0' as int + d) as char
  }

  /** A number's text has no superfluous leading zero: only "0" itself
      starts with '0'. */
  predicate NoLeadingZero(s: string) {
    |s| > 1 ==> s[0] != '0'
  }

  /** The value of a decimal digit; any other character reads as zero. */
  function DigitValue(c: char): (d: nat)
    ensures d < 10
    ensures IsDigit(c) ==> d == c as int - '0' as int
  {
    if IsDigit(c) then c as int - '0' as int else 0
  }

  /** Decimal digits of `n`, most significant first, without leading zeros. */
  function NatToString(n: nat): (s: string)
    ensures |s| >= 1
    ensures NoLeadingZero(s)
    ensures n < 10 <==> |s| == 1
    ensures n < 100 <==> |s| <= 2
    decreases n
  {
    if n < 10 then [DigitChar(n)] else NatToString(n / 10) + [DigitChar(n % 10)]
  }

  /** The value of a string of decimal digits, read left to right. */
  function ParseDigits(s: string): nat
  {
    if s == [] then 0 else ParseDigits(s[..|s| - 1]) * 10 + DigitValue(s[|s| - 1])
  }

  /** The rendering of `n` consists of decimal digits only. */
  lemma {:induction false} NatToStringDigits(n: nat)
    ensures AllDigits(NatToString(n))
    decreases n
  {
    if n >= 10 {
      NatToStringDigits(n / 10);
    }
  }

  /** Reading back the rendering of `n` gives `n`. */
  lemma {:induction false} ParseNatToString(n: nat)
    ensures ParseDigits(NatToString(n)) == n
    decreases n
  {
    var s := NatToString(n);
    if n >= 10 {
      ParseNatToString(n / 10);
      assert s[..|s| - 1] == NatToString(n / 10);
    } else {
      assert s[..0] == [];
    }
  }

  /** `width` copies of `c`. */
  function Repeat(c: char, width: nat): (r: string)
    ensures |r| == width
    ensures forall i :: 0 <= i < width ==> r[i] == c
  {
    if width == 0 then [] else Repeat(c, width - 1) + [c]
  }

  /** `s` left-padded with `fill` up to at least `width` characters. */
  function PadStart(s: string, width: nat, fill: char): (r: string)
    ensures |s| >= width ==> r == s
    ensures |s| < width ==> |r| == width
    ensures |r| >= |s|
  {
    if |s| >= width then s else Repeat(fill, width - |s|) + s
  }

  /** What the padding consists of: `fill` characters followed by `s` itself. */
  lemma PadStartContent(s: string, width: nat, fill: char)
    ensures var r := PadStart(s, width, fill);
      && r[|r| - |s|..] == s
      && forall i :: 0 <= i < |r| - |s| ==> r[i] == fill
  {
    if |s| < width {
      var r := Repeat(fill, width - |s|) + s;
      assert r[|r| - |s|..] == s;
    }
  }

  /** Leading zeros do not change the value of a digit string. */
  lemma {:induction false} ParseLeadingZeros(z: nat, s: string)
    ensures ParseDigits(Repeat('0', z) + s) == ParseDigits(s)
    decreases |s|
  {
    var t := Repeat('0', z) + s;
    if s == [] {
      assert t == Repeat('0', z);
      ZerosParseToZero(z);
    } else {
      ParseLeadingZeros(z, s[..|s| - 1]);
      assert t[..|t| - 1] == Repeat('0', z) + s[..|s| - 1];
    }
  }

  lemma {:induction false} ZerosParseToZero(z: nat)
    ensures ParseDigits(Repeat('0', z)) == 0
  {
    if z > 0 {
      var t := Repeat('0', z);
      ZerosParseToZero(z - 1);
      assert t[..|t| - 1] == Repeat('0', z - 1);
    }
  }

  /** Zero-padding the rendering of `n` still reads back as `n`. */
  lemma ParsePaddedNat(n: nat, width: nat)
    ensures ParseDigits(PadStart(NatToString(n), width, '0')) == n
  {
    var s := NatToString(n);
    ParseNatToString(n);
    if |s| < width {
      assert PadStart(s, width, '0') == Repeat('0', width - |s|) + s;
      ParseLeadingZeros(width - |s|, s);
    }
  }

  /** ASCII lower-casing of one character; other characters are unchanged. */
  function LowerChar(c: char): (r: char)
    ensures 'A' <= c <= 'Z' ==> 'a' <= r <= 'z' && r as int - c as int == 32
    ensures !('A' <= c <= 'Z') ==> r == c
  {
    if 'A' <= c <= 'Z' then (c as int + 32) as char else c
  }

  function Lower(s: string): (r: string)
    ensures |r| == |s|
    ensures forall i :: 0 <= i < |s| ==> r[i] == LowerChar(s[i])
  {
    seq(|s|, i requires 0 <= i < |s| => LowerChar(s[i]))
  }

  /** Lower-casing twice is lower-casing once. */
  lemma LowerIdempotent(s: string)
    ensures Lower(Lower(s)) == Lower(s)
  {
  }

  /** `q` occurs in `s` starting at index `i`. */
  predicate OccursAt(s: string, q: string, i: int) {
    0 <= i && i + |q| <= |s| && s[i..i + |q|] == q
  }

  predicate StartsWith(s: string, q: string) {
    |q| <= |s| && s[..|q|] == q
  }

  /** Whether `q` is a substring of `s`, scanning start positions left to right. */
  function Contains(s: string, q: string): bool
    decreases |s|
  {
    StartsWith(s, q) || (|s| > 0 && Contains(s[1..], q))
  }

  /** A match at start position `i` is found by the scan. */
  lemma {:induction false} OccursImpliesContains(s: string, q: string, i: int)
    requires OccursAt(s, q, i)
    ensures Contains(s, q)
    decreases i
  {
    if i == 0 {
      assert StartsWith(s, q);
    } else {
      assert s[1..][i - 1..i - 1 + |q|] == s[i..i + |q|];
      assert OccursAt(s[1..], q, i - 1);
      OccursImpliesContains(s[1..], q, i - 1);
    }
  }

  /** When the scan succeeds, some start position holds `q`. */
  lemma {:induction false} ContainsImpliesOccurs(s: string, q: string)
    requires Contains(s, q)
    ensures exists i :: OccursAt(s, q, i)
    decreases |s|
  {
    if StartsWith(s, q) {
      assert OccursAt(s, q, 0);
    } else {
      ContainsImpliesOccurs(s[1..], q);
      var j :| OccursAt(s[1..], q, j);
      assert s[j + 1..j + 1 + |q|] == s[1..][j..j + |q|];
      assert OccursAt(s, q, j + 1);
    }
  }

  /** The scan finds `q` exactly when some start position holds it. */
  lemma ContainsIffOccurs(s: string, q: string)
    ensures Contains(s, q) <==> exists i :: OccursAt(s, q, i)
  {
    if Contains(s, q) {
      ContainsImpliesOccurs(s, q);
    }
    forall i | OccursAt(s, q, i)
      ensures Contains(s, q)
    {
      OccursImpliesContains(s, q, i);
    }
  }

  /** The empty string occurs in every string. */
  lemma ContainsEmpty(s: string)
    ensures Contains(s, "")
  {
    assert StartsWith(s, "");
  }
}

=== FILE: track_trip.dfy ===
/** The trip-tracking screen: the elapsed-time display and the three button
    handlers that drive the store. The screen keeps its own copy of the
    checkpoint list next to the store's active trip, and it is that copy that
    is handed to `endTrip`. */
module TrackTrip {
  import opened TripTypes
  import opened Text
  import opened TripStore

  /** Whole hours, minutes and seconds of an elapsed time. */
  datatype ClockParts = ClockParts(hours: nat, minutes: nat, seconds: nat)

  /** Splits a number of seconds the way the display does. */
  function SplitSeconds(total: nat): (c: ClockParts)
    ensures c.hours * 3600 + c.minutes * 60 + c.seconds == total
    ensures c.minutes < 60 && c.seconds < 60
  {
    ClockParts(total / 3600, (total % 3600) / 60, total % 60)
  }

  /** The split is the only one with minutes and seconds below 60. */
  lemma SplitSecondsUnique(total: nat, c: ClockParts)
    requires c.hours * 3600 + c.minutes * 60 + c.seconds == total
    requires c.minutes < 60 && c.seconds < 60
    ensures c == SplitSeconds(total)
  {
    var d := SplitSeconds(total);
    assert c.hours * 3600 <= total < c.hours * 3600 + 3600;
    assert d.hours * 3600 <= total < d.hours * 3600 + 3600;
    assert c.hours == d.hours;
    assert c.minutes * 60 <= c.minutes * 60 + c.seconds < c.minutes * 60 + 60;
    assert c.minutes == d.minutes;
  }

  /** The hours field has two digits exactly below 100 hours. */
  lemma HoursBelow100(total: nat)
    ensures SplitSeconds(total).hours < 100 <==> total < 360000
  {
    var c := SplitSeconds(total);
    assert c.hours * 3600 <= total < c.hours * 3600 + 3600;
  }

  /** A field of the display: the number zero-padded to two digits. */
  function Pad2(n: nat): (s: string)
    ensures n < 100 <==> |s| == 2
    ensures |s| >= 2
  {
    PadStart(NatToString(n), 2, '0')
  }

  /** Zero-padding to two digits loses nothing: the field reads back as `n`. */
  lemma Pad2ReadsBack(n: nat)
    ensures ParseDigits(Pad2(n)) == n
  {
    ParsePaddedNat(n, 2);
  }

  /** A field is the decimal rendering of `n` preceded by '0' characters, so it
      consists of digits only. */
  lemma Pad2Content(n: nat)
    ensures var s, d := Pad2(n), NatToString(n);
      && s[|s| - |d|..] == d
      && (forall i :: 0 <= i < |s| - |d| ==> s[i] == '0')
      && AllDigits(s)
  {
    var s, d := Pad2(n), NatToString(n);
    PadStartContent(d, 2, '0');
    NatToStringDigits(n);
    forall i | 0 <= i < |s|
      ensures IsDigit(s[i])
    {
      if i >= |s| - |d| {
        assert s[i] == s[|s| - |d|..][i - (|s| - |d|)];
      }
    }
  }

  /** Three fields joined with ':'; the last two fields have two characters
      each, so the separators sit six and three places from the end. */
  function JoinFields(h: string, m: string, sec: string): (s: string)
    requires |m| == 2 && |sec| == 2
    ensures |s| == |h| + 6
    ensures s[|s| - 6] == ':' && s[|s| - 3] == ':'
    ensures s[..|s| - 6] == h && s[|s| - 5..|s| - 3] == m && s[|s| - 2..] == sec
  {
    var s := h + ":" + m + ":" + sec;
    assert s[..|s| - 6] == h;
    assert s[|s| - 5..|s| - 3] == m;
    assert s[|s| - 2..] == sec;
    s
  }

  /** The three padded fields joined with ':'. */
  function FormatClock(c: ClockParts): (s: string)
    requires c.minutes < 100 && c.seconds < 100
    ensures |s| >= 8
    ensures |s| == 8 <==> c.hours < 100
    ensures s[|s| - 6] == ':' && s[|s| - 3] == ':'
  {
    JoinFields(Pad2(c.hours), Pad2(c.minutes), Pad2(c.seconds))
  }

  /** Each field of the display reads back as the number it shows. */
  lemma FormatClockFields(c: ClockParts)
    requires c.minutes < 100 && c.seconds < 100
    ensures var s := FormatClock(c);
      && ParseDigits(s[..|s| - 6]) == c.hours
      && ParseDigits(s[|s| - 5..|s| - 3]) == c.minutes
      && ParseDigits(s[|s| - 2..]) == c.seconds
  {
    var h, m, sec := Pad2(c.hours), Pad2(c.minutes), Pad2(c.seconds);
    var s := JoinFields(h, m, sec);
    assert FormatClock(c) == s;
    Pad2ReadsBack(c.hours);
    Pad2ReadsBack(c.minutes);
    Pad2ReadsBack(c.seconds);
  }

  /** Every character of the display is a digit except the two separators. */
  lemma FormatClockDigits(c: ClockParts)
    requires c.minutes < 100 && c.seconds < 100
    ensures var s := FormatClock(c);
      forall i :: 0 <= i < |s| ==> (IsDigit(s[i]) <==> i != |s| - 6 && i != |s| - 3)
  {
    var h, m, sec := Pad2(c.hours), Pad2(c.minutes), Pad2(c.seconds);
    Pad2Content(c.hours);
    Pad2Content(c.minutes);
    Pad2Content(c.seconds);
    var s := JoinFields(h, m, sec);
    assert FormatClock(c) == s;
    forall i | 0 <= i < |s|
      ensures IsDigit(s[i]) <==> i != |s| - 6 && i != |s| - 3
    {
      if i < |s| - 6 {
        assert s[i] == s[..|s| - 6][i];
      } else if |s| - 6 < i < |s| - 3 {
        assert s[i] == s[|s| - 5..|s| - 3][i - (|s| - 5)];
      } else if |s| - 3 < i {
        assert s[i] == s[|s| - 2..][i - (|s| - 2)];
      }
    }
  }

  /** `formatTime(seconds)`: `HH:MM:SS`, the hours field growing past two
      digits from 100 hours on. */
  function FormatTime(total: nat): (s: string)
    ensures |s| >= 8
    ensures s[|s| - 6] == ':' && s[|s| - 3] == ':'
  {
    FormatClock(SplitSeconds(total))
  }

  /** The display is exactly eight characters wide below 100 hours. */
  lemma FormatTimeWidth(total: nat)
    ensures |FormatTime(total)| == 8 <==> total < 360000
  {
    HoursBelow100(total);
  }

  /** The display is zero-padded digits around the two ':' separators. */
  lemma FormatTimeDigits(total: nat)
    ensures var s := FormatTime(total);
      forall i :: 0 <= i < |s| ==> (IsDigit(s[i]) <==> i != |s| - 6 && i != |s| - 3)
  {
    FormatClockDigits(SplitSeconds(total));
  }

  /** The display's three fields are the padded hours, minutes and seconds of
      the split, so the minutes and seconds shown are both below 60. */
  lemma FormatTimeFields(total: nat)
    ensures var s, c := FormatTime(total), SplitSeconds(total);
      && s[..|s| - 6] == Pad2(c.hours)
      && s[|s| - 5..|s| - 3] == Pad2(c.minutes)
      && s[|s| - 2..] == Pad2(c.seconds)
      && c.minutes < 60 && c.seconds < 60
  {
  }

  /** Reads an `H…H:MM:SS` display back as a number of seconds. */
  function ParseTime(s: string): nat
    requires |s| >= 8
  {
    ParseDigits(s[..|s| - 6]) * 3600 + ParseDigits(s[|s| - 5..|s| - 3]) * 60 + ParseDigits(s[|s| - 2..])
  }

  /** The display loses nothing: it reads back as the elapsed time. */
  lemma FormatTimeRoundTrip(total: nat)
    ensures ParseTime(FormatTime(total)) == total
  {
    ParseFormatClock(SplitSeconds(total));
  }

  lemma ParseFormatClock(c: ClockParts)
    requires c.minutes < 100 && c.seconds < 100
    ensures ParseTime(FormatClock(c)) == c.hours * 3600 + c.minutes * 60 + c.seconds
  {
    FormatClockFields(c);
  }

  /** The simulated position every checkpoint is recorded at. */
  const SimulatedLatitude: real := 8.5241
  const SimulatedLongitude: real := 76.9366

  /** The screen's state: the store it drives, whether a trip is being
      recorded, the form fields, and its own list of checkpoints. */
  datatype Page = Page(
    store: Store,
    isTracking: bool,
    origin: string,
    destination: string,
    mode: TripMode,
    purpose: TripPurpose,
    notes: string,
    checkpoints: seq<Checkpoint>,
    checkpointName: string,
    checkpointNote: string,
    showAddCheckpoint: bool)

  /** The screen as first shown: the form is filled from the active trip when
      there is one, otherwise from the screen's defaults (mode car, purpose
      work). */
  function OpenPage(store: Store): (p: Page)
    ensures p.store == store
    ensures p.isTracking <==> store.active.Some?
    ensures store.active.Some? ==>
      && p.origin == store.active.value.origin
      && p.destination == store.active.value.destination
      && p.mode == store.active.value.mode
      && p.purpose == store.active.value.purpose
      && p.notes == store.active.value.notes
      && p.checkpoints == store.active.value.checkpoints
    ensures store.active.None? ==>
      && p.origin == "" && p.destination == "" && p.notes == ""
      && p.mode == Car && p.purpose == Work && p.checkpoints == []
    ensures p.checkpointName == "" && p.checkpointNote == "" && !p.showAddCheckpoint
  {
    match store.active
    case None => Page(store, false, "", "", Car, Work, "", [], "", "", false)
    case Some(a) => Page(store, true, a.origin, a.destination, a.mode, a.purpose, a.notes, a.checkpoints, "", "", false)
  }

  /** `handleStartTracking`: nothing happens without an origin; otherwise a
      trip is started from the typed origin and the screen switches to
      recording. */
  function HandleStartTracking(p: Page, tripId: string, now: int): (r: Page)
    ensures p.origin == "" ==> r == p
    ensures p.origin != "" ==>
      && r.isTracking
      && r.store.active.Some?
      && r.store.active.value.origin == p.origin
      && r.store.active.value.checkpoints == []
      && r.store.trips == p.store.trips
      && r.store == StartTrip(p.store, p.origin, tripId, now).0
      && r == p.(store := r.store, isTracking := true)
  {
    if p.origin == "" then p
    else p.(store := StartTrip(p.store, p.origin, tripId, now).0, isTracking := true)
  }

  /** The fields of a checkpoint other than its id, as `addCheckpoint` takes them. */
  function WithoutId(c: Checkpoint): (input: CheckpointInput)
    ensures WithId(input, c.id) == c
  {
    CheckpointInput(c.name, c.latitude, c.longitude, c.timestamp, c.note, c.photoUrl)
  }

  /** `handleAddCheckpoint`: nothing happens without a name; otherwise one
      checkpoint at the simulated position is appended to the screen's list
      under `localId` and handed to the store, which files it under its own
      `storeId`; the name and note inputs are cleared and the sheet closed. */
  function HandleAddCheckpoint(p: Page, localId: string, storeId: string, now: int): (r: Page)
    ensures p.checkpointName == "" ==> r == p
    ensures p.checkpointName != "" ==>
      var cp := Checkpoint(localId, p.checkpointName, SimulatedLatitude, SimulatedLongitude, now, Some(p.checkpointNote), None);
      && r.checkpoints == p.checkpoints + [cp]
      && r.store == AddCheckpoint(p.store, WithoutId(cp), storeId)
      && r.checkpointName == "" && r.checkpointNote == "" && !r.showAddCheckpoint
      && r.isTracking == p.isTracking && r.origin == p.origin && r.destination == p.destination
      && r.mode == p.mode && r.purpose == p.purpose && r.notes == p.notes
  {
    if p.checkpointName == "" then p
    else
      var cp := Checkpoint(localId, p.checkpointName, SimulatedLatitude, SimulatedLongitude, now, Some(p.checkpointNote), None);
      p.(checkpoints := p.checkpoints + [cp],
         store := AddCheckpoint(p.store, WithoutId(cp), storeId),
         checkpointName := "",
         checkpointNote := "",
         showAddCheckpoint := false)
  }

  /** The patch `handleStopTracking` hands to `endTrip`: the form's fields, the
      screen's own checkpoint list and the distance. */
  function StopPatch(p: Page, distance: real): TripPatch {
    EmptyPatch.(
      destination := Some(p.destination),
      mode := Some(p.mode),
      purpose := Some(p.purpose),
      notes := Some(p.notes),
      checkpoints := Some(p.checkpoints),
      distance := Some(Some(distance)))
  }

  /** `handleStopTracking`: ends the trip with the form's fields and leaves
      recording mode. With an active trip, the completed trip keeps the
      active trip's id, origin and start time and takes the form's fields. */
  function HandleStopTracking(p: Page, distance: real, endedAt: int, measuredAt: int): (r: (Page, Option<Trip>))
    ensures !r.0.isTracking && r.0.store.active.None?
    ensures r.0 == p.(store := r.0.store, isTracking := false)
    ensures p.store.active.None? ==> r.1.None? && r.0.store == p.store
    ensures p.store.active.Some? ==>
      var a := p.store.active.value;
      && r.1.Some?
      && r.0.store.trips == [r.1.value] + p.store.trips
      && r.1.value.id == a.id && r.1.value.origin == a.origin && r.1.value.startTime == a.startTime
      && r.1.value.destination == p.destination && r.1.value.mode == p.mode
      && r.1.value.purpose == p.purpose && r.1.value.notes == p.notes
      && r.1.value.checkpoints == p.checkpoints
      && r.1.value.photos == a.photos
      && r.1.value.distance == Some(distance)
      && r.1.value.endTime == Some(endedAt)
      && r.1.value.duration == Some(RoundMinutes(measuredAt - a.startTime))
      && !r.1.value.isActive
  {
    var (s, c) := EndTrip(p.store, StopPatch(p, distance), endedAt, measuredAt);
    (p.(store := s, isTracking := false), c)
  }

  /** Two checkpoints that differ at most in their ids. */
  predicate SameExceptId(a: Checkpoint, b: Checkpoint) {
    a.(id := "") == b.(id := "")
  }

  /** The screen's list and the store's list hold the same checkpoints in the
      same order, up to their ids. */
  predicate Mirrors(local: seq<Checkpoint>, stored: seq<Checkpoint>) {
    |local| == |stored| && forall i :: 0 <= i < |local| ==> SameExceptId(local[i], stored[i])
  }

  /** While recording, the store has an active trip whose checkpoints mirror
      the screen's; otherwise the screen's list is empty. */
  predicate Synced(p: Page) {
    if p.isTracking then p.store.active.Some? && Mirrors(p.checkpoints, p.store.active.value.checkpoints)
    else p.checkpoints == []
  }

  lemma OpenPageSynced(store: Store)
    ensures Synced(OpenPage(store))
  {
  }

  /** Starting (the start button is shown only while not recording) keeps the
      screen and store in step. */
  lemma StartKeepsSynced(p: Page, tripId: string, now: int)
    requires Synced(p) && !p.isTracking
    ensures Synced(HandleStartTracking(p, tripId, now))
  {
  }

  /** Adding a checkpoint (the sheet is shown only while recording) keeps the
      screen and store in step, whatever ids the two sides give it. */
  lemma AddKeepsSynced(p: Page, localId: string, storeId: string, now: int)
    requires Synced(p) && p.isTracking
    ensures Synced(HandleAddCheckpoint(p, localId, storeId, now))
  {
    var r := HandleAddCheckpoint(p, localId, storeId, now);
    if p.checkpointName != "" {
      var n := |p.checkpoints|;
      assert forall i :: 0 <= i < n ==> r.checkpoints[i] == p.checkpoints[i];
      assert forall i :: 0 <= i < n ==>
        r.store.active.value.checkpoints[i] == p.store.active.value.checkpoints[i];
    }
  }

  /** Stopping a recording in step stores the screen's checkpoints: the same
      checkpoints as the store's active trip held, in the same order, but
      under the ids the screen gave them. */
  lemma StopStoresMirroredCheckpoints(p: Page, distance: real, endedAt: int, measuredAt: int)
    requires Synced(p) && p.isTracking
    ensures
      var c := HandleStopTracking(p, distance, endedAt, measuredAt).1;
      && c.Some?
      && c.value.checkpoints == p.checkpoints
      && Mirrors(c.value.checkpoints, p.store.active.value.checkpoints)
  {
  }
}

=== FILE: trip_history.dfy ===
/** The trip-history screen: a case-insensitive search over origin and
    destination combined with a transport-mode filter, and the grouping of
    the surviving trips by calendar day. The day of a trip is the result of
    an abstract `dayKey` function of its start time (the screen formats the
    start time as `yyyy-MM-dd`). */
module TripHistory {
  import opened TripTypes
  import opened Text
  import opened Seqs

  /** The mode filter: every mode, or one mode. */
  datatype ModeFilter = AnyMode | OnlyMode(mode: TripMode)

  /** The filter chips the screen offers, in display order. */
  const ModeChoices: seq<ModeFilter> :=
    [AnyMode, OnlyMode(Car), OnlyMode(Bus), OnlyMode(Train), OnlyMode(Bike), OnlyMode(Walk), OnlyMode(Auto)]

  /** "All" comes first, followed by exactly six modes; metro, taxi, flight
      and other cannot be chosen. */
  lemma ModeChoicesShape()
    ensures |ModeChoices| == 7 && Distinct(ModeChoices)
    ensures ModeChoices[0] == AnyMode
    ensures forall m: TripMode :: OnlyMode(m) in ModeChoices <==> m in {Car, Bus, Train, Bike, Walk, Auto}
  {
  }

  /** The lower-cased origin or destination contains the lower-cased query. */
  predicate MatchesSearch(t: Trip, query: string) {
    Contains(Lower(t.origin), Lower(query)) || Contains(Lower(t.destination), Lower(query))
  }

  predicate MatchesMode(t: Trip, f: ModeFilter) {
    f.AnyMode? || t.mode == f.mode
  }

  /** The search condition stated with explicit match positions. */
  ghost predicate SearchHits(t: Trip, query: string) {
    || (exists i :: OccursAt(Lower(t.origin), Lower(query), i))
    || (exists i :: OccursAt(Lower(t.destination), Lower(query), i))
  }

  lemma MatchesSearchIff(t: Trip, query: string)
    ensures MatchesSearch(t, query) <==> SearchHits(t, query)
  {
    ContainsIffOccurs(Lower(t.origin), Lower(query));
    ContainsIffOccurs(Lower(t.destination), Lower(query));
  }

  /** Whether the screen keeps a trip. */
  predicate Shown(t: Trip, query: string, f: ModeFilter) {
    MatchesSearch(t, query) && MatchesMode(t, f)
  }

  /** `filteredTrips`: the kept trips, in list order. A trip is kept exactly
      when the lower-cased query occurs at some position of its lower-cased
      origin or destination, and its mode passes the filter. */
  function FilterTrips(ts: seq<Trip>, query: string, f: ModeFilter): (r: seq<Trip>)
    ensures IsSubsequence(r, ts)
    ensures forall t :: t in r <==> t in ts && SearchHits(t, query) && (f.AnyMode? || t.mode == f.mode)
    ensures forall t :: multiset(r)[t] == (if SearchHits(t, query) && (f.AnyMode? || t.mode == f.mode) then multiset(ts)[t] else 0)
  {
    forall t | t in ts
      ensures MatchesSearch(t, query) <==> SearchHits(t, query)
    {
      MatchesSearchIff(t, query);
    }
    FilterCounts(ts, (t: Trip) => Shown(t, query, f));
    Filter(ts, (t: Trip) => Shown(t, query, f))
  }

  /** An empty query with "All" selected shows every trip. */
  lemma EmptySearchShowsAll(ts: seq<Trip>)
    ensures FilterTrips(ts, "", AnyMode) == ts
  {
    forall i | 0 <= i < |ts|
      ensures Shown(ts[i], "", AnyMode)
    {
      ContainsEmpty(Lower(ts[i].origin));
    }
    FilterKeepsAll(ts, (t: Trip) => Shown(t, "", AnyMode));
  }

  /** The "No trips found" state is shown exactly when no trip passes. */
  lemma EmptyStateIff(ts: seq<Trip>, query: string, f: ModeFilter)
    ensures FilterTrips(ts, query, f) == [] <==> forall i :: 0 <= i < |ts| ==> !Shown(ts[i], query, f)
  {
    FilterEmptyIff(ts, (t: Trip) => Shown(t, query, f));
  }

  /** The search ignores ASCII case in the query. */
  lemma SearchIgnoresQueryCase(ts: seq<Trip>, query: string, f: ModeFilter)
    ensures FilterTrips(ts, Lower(query), f) == FilterTrips(ts, query, f)
  {
    LowerIdempotent(query);
    FilterCongruent(ts, (t: Trip) => Shown(t, Lower(query), f), (t: Trip) => Shown(t, query, f));
  }

  /** One day's trips under a day key. */
  datatype Group = Group(key: string, trips: seq<Trip>)

  /** The trips of `ts` whose day is `k`, in list order. */
  function TripsOnDay(ts: seq<Trip>, dayKey: int -> string, k: string): seq<Trip> {
    Filter(ts, (t: Trip) => dayKey(t.startTime) == k)
  }

  /** The position of the group for day `k`, if there is one. */
  function GroupIndex(gs: seq<Group>, k: string): (r: Option<nat>)
    ensures r.Some? ==> r.value < |gs| && gs[r.value].key == k
    ensures r.None? ==> forall j :: 0 <= j < |gs| ==> gs[j].key != k
    decreases |gs|
  {
    if gs == [] then None
    else if gs[0].key == k then Some(0)
    else
      match GroupIndex(gs[1..], k)
      case None => None
      case Some(j) => Some(j + 1)
  }

  /** One step of the reduction: push `t` onto the group for `k`, opening the
      group at the end when the day is new. */
  function AddToGroups(gs: seq<Group>, t: Trip, k: string): seq<Group> {
    match GroupIndex(gs, k)
    case Some(i) => gs[i := Group(k, gs[i].trips + [t])]
    case None => gs + [Group(k, [t])]
  }

  /** No two groups share a day. */
  predicate DistinctKeys(gs: seq<Group>) {
    forall i, j :: 0 <= i < j < |gs| ==> gs[i].key != gs[j].key
  }

  /** `groupedTrips`: the reduction over the trips, first to last; groups
      appear in the order their day first occurs. */
  function GroupByDay(ts: seq<Trip>, dayKey: int -> string): (gs: seq<Group>)
    ensures GroupsOf(ts, dayKey, gs)
    decreases |ts|
  {
    if ts == [] then []
    else
      var init := ts[..|ts| - 1];
      var t := ts[|ts| - 1];
      var k := dayKey(t.startTime);
      var g0 := GroupByDay(init, dayKey);
      assert ts == init + [t];
      if GroupIndex(g0, k).Some? then
        GroupStepExisting(init, t, dayKey, g0);
        AddToGroups(g0, t, k)
      else
        GroupStepNew(init, t, dayKey, g0);
        AddToGroups(g0, t, k)
  }

  /** The invariant the reduction keeps: distinct days, each group holding
      exactly that day's trips, no empty group, every trip's day present. */
  predicate GroupsOf(ts: seq<Trip>, dayKey: int -> string, gs: seq<Group>) {
    && DistinctKeys(gs)
    && (forall j :: 0 <= j < |gs| ==> gs[j].trips == TripsOnDay(ts, dayKey, gs[j].key))
    && (forall j :: 0 <= j < |gs| ==> gs[j].trips != [])
    && (forall i :: 0 <= i < |ts| ==> GroupIndex(gs, dayKey(ts[i].startTime)).Some?)
  }

  /** Adding one trip to a day's selection appends it when it is of that day. */
  lemma TripsOnDayAppend(init: seq<Trip>, t: Trip, dayKey: int -> string, key: string)
    ensures TripsOnDay(init + [t], dayKey, key) ==
      TripsOnDay(init, dayKey, key) + (if dayKey(t.startTime) == key then [t] else [])
  {
    FilterAppend(init, t, (u: Trip) => dayKey(u.startTime) == key);
  }

  /** Groups that keep their keys in place keep every day they covered. */
  lemma CoveredAfterStep(init: seq<Trip>, dayKey: int -> string, g0: seq<Group>, gs: seq<Group>)
    requires forall i :: 0 <= i < |init| ==> GroupIndex(g0, dayKey(init[i].startTime)).Some?
    requires |g0| <= |gs|
    requires forall j :: 0 <= j < |g0| ==> gs[j].key == g0[j].key
    ensures forall i :: 0 <= i < |init| ==> GroupIndex(gs, dayKey(init[i].startTime)).Some?
  {
    forall i | 0 <= i < |init|
      ensures GroupIndex(gs, dayKey(init[i].startTime)).Some?
    {
      var key := dayKey(init[i].startTime);
      var j := GroupIndex(g0, key).value;
      assert gs[j].key == key;
    }
  }

  /** The trips of `init + [t]` are covered once those of `init` and `t` are. */
  lemma CoveredAppend(init: seq<Trip>, t: Trip, dayKey: int -> string, gs: seq<Group>)
    requires forall i :: 0 <= i < |init| ==> GroupIndex(gs, dayKey(init[i].startTime)).Some?
    requires GroupIndex(gs, dayKey(t.startTime)).Some?
    ensures forall i :: 0 <= i < |init + [t]| ==> GroupIndex(gs, dayKey((init + [t])[i].startTime)).Some?
  {
    var ts := init + [t];
    forall i | 0 <= i < |ts|
      ensures GroupIndex(gs, dayKey(ts[i].startTime)).Some?
    {
      if i < |init| {
        assert ts[i] == init[i];
      }
    }
  }

  /** A trip whose day already has a group joins that group. */
  lemma GroupStepExisting(init: seq<Trip>, t: Trip, dayKey: int -> string, g0: seq<Group>)
    requires GroupsOf(init, dayKey, g0)
    requires GroupIndex(g0, dayKey(t.startTime)).Some?
    ensures GroupsOf(init + [t], dayKey, AddToGroups(g0, t, dayKey(t.startTime)))
  {
    var k := dayKey(t.startTime);
    var ts := init + [t];
    var i := GroupIndex(g0, k).value;
    var gs := AddToGroups(g0, t, k);
    assert gs == g0[i := Group(k, g0[i].trips + [t])];
    assert forall j :: 0 <= j < |gs| ==> gs[j].key == g0[j].key;
    forall j | 0 <= j < |gs|
      ensures gs[j].trips == TripsOnDay(ts, dayKey, gs[j].key) && gs[j].trips != []
    {
      TripsOnDayAppend(init, t, dayKey, g0[j].key);
    }
    CoveredAfterStep(init, dayKey, g0, gs);
    CoveredAppend(init, t, dayKey, gs);
  }

  /** A trip of a new day opens a group at the end. */
  lemma GroupStepNew(init: seq<Trip>, t: Trip, dayKey: int -> string, g0: seq<Group>)
    requires GroupsOf(init, dayKey, g0)
    requires GroupIndex(g0, dayKey(t.startTime)).None?
    ensures GroupsOf(init + [t], dayKey, AddToGroups(g0, t, dayKey(t.startTime)))
  {
    var k := dayKey(t.startTime);
    var ts := init + [t];
    var gs := AddToGroups(g0, t, k);
    assert gs == g0 + [Group(k, [t])];
    forall i' | 0 <= i' < |init|
      ensures dayKey(init[i'].startTime) != k
    {
      var j := GroupIndex(g0, dayKey(init[i'].startTime)).value;
      assert g0[j].key == dayKey(init[i'].startTime);
    }
    FilterEmptyIff(init, (u: Trip) => dayKey(u.startTime) == k);
    assert TripsOnDay(init, dayKey, k) == [];
    forall j | 0 <= j < |gs|
      ensures gs[j].trips == TripsOnDay(ts, dayKey, gs[j].key) && gs[j].trips != []
    {
      TripsOnDayAppend(init, t, dayKey, gs[j].key);
    }
    assert gs[|g0|].key == k;
    CoveredAfterStep(init, dayKey, g0, gs);
    CoveredAppend(init, t, dayKey, gs);
  }

  /** The position of the first trip of day `k` in `ts`, or `|ts|` when no
      trip falls on that day. */
  function FirstOfDay(ts: seq<Trip>, dayKey: int -> string, k: string): (r: nat)
    ensures r <= |ts|
    ensures r < |ts| ==> dayKey(ts[r].startTime) == k
    ensures forall i :: 0 <= i < r ==> dayKey(ts[i].startTime) != k
    decreases |ts|
  {
    if ts == [] then 0
    else if dayKey(ts[0].startTime) == k then 0
    else
      var r := 1 + FirstOfDay(ts[1..], dayKey, k);
      assert forall i :: 1 <= i < r ==> ts[i] == ts[1..][i - 1];
      r
  }

  /** A day that already occurs keeps its first position when a trip is appended. */
  lemma FirstOfDayAppend(init: seq<Trip>, t: Trip, dayKey: int -> string, k: string)
    requires FirstOfDay(init, dayKey, k) < |init|
    ensures FirstOfDay(init + [t], dayKey, k) == FirstOfDay(init, dayKey, k)
  {
    var r := FirstOfDay(init, dayKey, k);
    assert (init + [t])[r] == init[r];
  }

  /** A day that first occurs with the appended trip first occurs at its position. */
  lemma FirstOfDayNew(init: seq<Trip>, t: Trip, dayKey: int -> string)
    requires forall i :: 0 <= i < |init| ==> dayKey(init[i].startTime) != dayKey(t.startTime)
    ensures FirstOfDay(init + [t], dayKey, dayKey(t.startTime)) == |init|
  {
    var ts := init + [t];
    assert ts[|init|] == t;
  }

  /** Every group's day occurs in `ts`, and the groups are ordered by where
      their day first occurs. */
  predicate InFirstDayOrder(ts: seq<Trip>, dayKey: int -> string, gs: seq<Group>) {
    && (forall j :: 0 <= j < |gs| ==> FirstOfDay(ts, dayKey, gs[j].key) < |ts|)
    && (forall j, j' :: 0 <= j < j' < |gs| ==>
          FirstOfDay(ts, dayKey, gs[j].key) < FirstOfDay(ts, dayKey, gs[j'].key))
  }

  /** Appending a trip keeps the first position of every day that has a group. */
  lemma FirstOfDaysKept(init: seq<Trip>, t: Trip, dayKey: int -> string, g0: seq<Group>)
    requires InFirstDayOrder(init, dayKey, g0)
    ensures forall j :: 0 <= j < |g0| ==>
      FirstOfDay(init + [t], dayKey, g0[j].key) == FirstOfDay(init, dayKey, g0[j].key)
  {
    forall j | 0 <= j < |g0|
      ensures FirstOfDay(init + [t], dayKey, g0[j].key) == FirstOfDay(init, dayKey, g0[j].key)
    {
      FirstOfDayAppend(init, t, dayKey, g0[j].key);
    }
  }

  /** A trip joining an existing group keeps the order: no key moves and no
      day's first position changes. */
  lemma OrderStepExisting(init: seq<Trip>, t: Trip, dayKey: int -> string, g0: seq<Group>, i: nat)
    requires InFirstDayOrder(init, dayKey, g0)
    requires i < |g0|
    ensures InFirstDayOrder(init + [t], dayKey, g0[i := Group(g0[i].key, g0[i].trips + [t])])
  {
    var gs := g0[i := Group(g0[i].key, g0[i].trips + [t])];
    FirstOfDaysKept(init, t, dayKey, g0);
    assert forall j :: 0 <= j < |gs| ==> gs[j].key == g0[j].key;
  }

  /** A trip of a day not seen before opens the last group, whose day first
      occurs after every earlier day. */
  lemma OrderStepNew(init: seq<Trip>, t: Trip, dayKey: int -> string, g0: seq<Group>)
    requires InFirstDayOrder(init, dayKey, g0)
    requires forall i :: 0 <= i < |init| ==> dayKey(init[i].startTime) != dayKey(t.startTime)
    ensures InFirstDayOrder(init + [t], dayKey, g0 + [Group(dayKey(t.startTime), [t])])
  {
    var gs := g0 + [Group(dayKey(t.startTime), [t])];
    FirstOfDaysKept(init, t, dayKey, g0);
    FirstOfDayNew(init, t, dayKey);
    assert forall j :: 0 <= j < |g0| ==> gs[j] == g0[j];
  }

  /** One step of the reduction keeps the groups in first-occurrence order,
      given that a day without a group does not occur among the earlier trips. */
  lemma OrderStep(init: seq<Trip>, t: Trip, dayKey: int -> string, g0: seq<Group>)
    requires InFirstDayOrder(init, dayKey, g0)
    requires GroupIndex(g0, dayKey(t.startTime)).None? ==>
      forall i :: 0 <= i < |init| ==> dayKey(init[i].startTime) != dayKey(t.startTime)
    ensures InFirstDayOrder(init + [t], dayKey, AddToGroups(g0, t, dayKey(t.startTime)))
  {
    match GroupIndex(g0, dayKey(t.startTime))
    case Some(i) =>
      OrderStepExisting(init, t, dayKey, g0, i);
    case None =>
      OrderStepNew(init, t, dayKey, g0);
  }

  /** The groups come in the order their days first occur in the list. */
  lemma {:induction false} GroupByDayOrder(ts: seq<Trip>, dayKey: int -> string)
    ensures InFirstDayOrder(ts, dayKey, GroupByDay(ts, dayKey))
    decreases |ts|
  {
    if ts != [] {
      var init := ts[..|ts| - 1];
      var t := ts[|ts| - 1];
      var k := dayKey(t.startTime);
      var g0 := GroupByDay(init, dayKey);
      GroupByDayOrder(init, dayKey);
      assert ts == init + [t];
      if GroupIndex(g0, k).None? {
        forall i | 0 <= i < |init|
          ensures dayKey(init[i].startTime) != k
        {
          var j := GroupIndex(g0, dayKey(init[i].startTime)).value;
          assert g0[j].key == dayKey(init[i].startTime);
        }
      }
      OrderStep(init, t, dayKey, g0);
    }
  }

  /** Total number of trips held by the groups. */
  function GroupedCount(gs: seq<Group>): nat
    decreases |gs|
  {
    if gs == [] then 0 else |gs[0].trips| + GroupedCount(gs[1..])
  }

  /** Every trip is in exactly one group: the one for its own day. */
  lemma EachTripInOneGroup(ts: seq<Trip>, dayKey: int -> string, t: Trip)
    requires t in ts
    ensures var gs := GroupByDay(ts, dayKey);
      && GroupIndex(gs, dayKey(t.startTime)).Some?
      && forall j :: 0 <= j < |gs| ==>
           (t in gs[j].trips <==> j == GroupIndex(gs, dayKey(t.startTime)).value)
  {
    var gs := GroupByDay(ts, dayKey);
    var i :| 0 <= i < |ts| && ts[i] == t;
    assert GroupIndex(gs, dayKey(ts[i].startTime)).Some?;
  }

  lemma {:induction false} GroupedCountAppend(gs: seq<Group>, g: Group)
    ensures GroupedCount(gs + [g]) == GroupedCount(gs) + |g.trips|
    decreases |gs|
  {
    if gs != [] {
      assert (gs + [g])[1..] == gs[1..] + [g];
      GroupedCountAppend(gs[1..], g);
    }
  }

  lemma {:induction false} GroupedCountUpdate(gs: seq<Group>, i: nat, g: Group)
    requires i < |gs|
    ensures GroupedCount(gs[i := g]) == GroupedCount(gs) - |gs[i].trips| + |g.trips|
    decreases |gs|
  {
    if i > 0 {
      assert gs[i := g][1..] == gs[1..][i - 1 := g];
      GroupedCountUpdate(gs[1..], i - 1, g);
    }
  }

  /** The groups together hold as many trips as the list they were built from. */
  lemma {:induction false} GroupedCountTotal(ts: seq<Trip>, dayKey: int -> string)
    ensures GroupedCount(GroupByDay(ts, dayKey)) == |ts|
    decreases |ts|
  {
    if ts != [] {
      var init := ts[..|ts| - 1];
      var t := ts[|ts| - 1];
      var k := dayKey(t.startTime);
      var g0 := GroupByDay(init, dayKey);
      GroupedCountTotal(init, dayKey);
      assert GroupByDay(ts, dayKey) == AddToGroups(g0, t, k);
      match GroupIndex(g0, k)
      case Some(i) =>
        GroupedCountUpdate(g0, i, Group(k, g0[i].trips + [t]));
      case None =>
        GroupedCountAppend(g0, Group(k, [t]));
    }
  }

  /** The screen's groups: the day grouping of the filtered trips. */
  function GroupedTrips(ts: seq<Trip>, query: string, f: ModeFilter, dayKey: int -> string): (gs: seq<Group>)
    ensures GroupsOf(FilterTrips(ts, query, f), dayKey, gs)
  {
    GroupByDay(FilterTrips(ts, query, f), dayKey)
  }
}

=== FILE: trip_store.dfy ===
/** The trip-tracking store: an ordered list of completed trips (newest first
    by convention) and at most one active trip, with the operations that move
    a trip through its lifecycle. Each operation is one atomic transition;
    clock readings (in milliseconds) and freshly generated ids are
    parameters. */
module TripStore {
  import opened TripTypes
  import Seqs

  /** The store's state. Holding the active trip in an `Option` makes "at most
      one active trip" hold by construction. */
  datatype Store = Store(trips: seq<Trip>, active: Option<Trip>)

  /** A partial trip (`Partial<Trip>`): `Some` marks a field the patch sets.
      For the three optional fields a patch may also set the field to absent,
      hence the nested `Option`. */
  datatype TripPatch = TripPatch(
    id: Option<string>,
    origin: Option<string>,
    destination: Option<string>,
    startTime: Option<int>,
    endTime: Option<Option<int>>,
    duration: Option<Option<int>>,
    distance: Option<Option<real>>,
    mode: Option<TripMode>,
    purpose: Option<TripPurpose>,
    checkpoints: Option<seq<Checkpoint>>,
    notes: Option<string>,
    photos: Option<seq<string>>,
    isActive: Option<bool>)

  /** The patch that sets nothing (`{}`). */
  const EmptyPatch := TripPatch(None, None, None, None, None, None, None, None, None, None, None, None, None)

  /** A checkpoint as the caller hands it in, before the store gives it an id. */
  datatype CheckpointInput = CheckpointInput(
    name: string,
    latitude: real,
    longitude: real,
    timestamp: int,
    note: Option<string>,
    photoUrl: Option<string>)

  /** The shallow merge `{ ...t, ...p }`: every field the patch sets is taken
      from the patch, every other field from `t`. */
  function Overlay(t: Trip, p: TripPatch): (r: Trip)
  {
    Trip(
      p.id.GetOr(t.id),
      p.origin.GetOr(t.origin),
      p.destination.GetOr(t.destination),
      p.startTime.GetOr(t.startTime),
      p.endTime.GetOr(t.endTime),
      p.duration.GetOr(t.duration),
      p.distance.GetOr(t.distance),
      p.mode.GetOr(t.mode),
      p.purpose.GetOr(t.purpose),
      p.checkpoints.GetOr(t.checkpoints),
      p.notes.GetOr(t.notes),
      p.photos.GetOr(t.photos),
      p.isActive.GetOr(t.isActive))
  }

  /** The empty patch changes nothing. */
  lemma OverlayEmpty(t: Trip)
    ensures Overlay(t, EmptyPatch) == t
  {
  }

  /** Applying the same patch twice is the same as applying it once. */
  lemma OverlayIdempotent(t: Trip, p: TripPatch)
    ensures Overlay(Overlay(t, p), p) == Overlay(t, p)
  {
  }

  /** `p` then `q`, where `q` wins on every field both set. */
  function MergePatches(p: TripPatch, q: TripPatch): TripPatch {
    TripPatch(
      if q.id.Some? then q.id else p.id,
      if q.origin.Some? then q.origin else p.origin,
      if q.destination.Some? then q.destination else p.destination,
      if q.startTime.Some? then q.startTime else p.startTime,
      if q.endTime.Some? then q.endTime else p.endTime,
      if q.duration.Some? then q.duration else p.duration,
      if q.distance.Some? then q.distance else p.distance,
      if q.mode.Some? then q.mode else p.mode,
      if q.purpose.Some? then q.purpose else p.purpose,
      if q.checkpoints.Some? then q.checkpoints else p.checkpoints,
      if q.notes.Some? then q.notes else p.notes,
      if q.photos.Some? then q.photos else p.photos,
      if q.isActive.Some? then q.isActive else p.isActive)
  }

  /** Two successive merges are one merge of the combined patch. */
  lemma OverlayCompose(t: Trip, p: TripPatch, q: TripPatch)
    ensures Overlay(Overlay(t, p), q) == Overlay(t, MergePatches(p, q))
  {
  }

  /** `startTrip(origin)`: a fresh active trip with the documented defaults.
      It replaces any trip that was already active; the completed list is
      untouched. Returns the new store and the new trip. */
  function StartTrip(s: Store, origin: string, id: string, now: int): (r: (Store, Trip))
    ensures r.1.id == id && r.1.origin == origin && r.1.startTime == now
    ensures r.1.destination == "" && r.1.notes == ""
    ensures r.1.mode == Car && r.1.purpose == OtherPurpose
    ensures r.1.checkpoints == [] && r.1.photos == []
    ensures r.1.endTime.None? && r.1.duration.None? && r.1.distance.None?
    ensures r.1.isActive
    ensures r.0.active == Some(r.1)
    ensures r.0.trips == s.trips
  {
    var t := Trip(id, origin, "", now, None, None, None, Car, OtherPurpose, [], "", [], true);
    (Store(s.trips, Some(t)), t)
  }

  /** `Math.round(elapsedMs / 60000)`: whole minutes, halves rounded up.
      For an integer numerator this is `floor((elapsedMs + 30000) / 60000)`. */
  function RoundMinutes(elapsedMs: int): (m: int)
    ensures m * 60000 - 30000 <= elapsedMs < m * 60000 + 30000
    ensures elapsedMs >= 0 ==> m >= 0
  {
    (elapsedMs + 30000) / 60000
  }

  /** The integer formula agrees with rounding the real quotient half-up. */
  lemma RoundMinutesIsHalfUp(elapsedMs: int)
    ensures RoundMinutes(elapsedMs) == ((elapsedMs as real) / 60000.0 + 0.5).Floor
  {
    var m := RoundMinutes(elapsedMs);
    var x := (elapsedMs as real) / 60000.0 + 0.5;
    assert (m as real) * 60000.0 - 30000.0 <= elapsedMs as real;
    assert elapsedMs as real < (m as real) * 60000.0 + 30000.0;
    assert m as real <= x;
    assert x < (m + 1) as real;
  }

  /** The completed form of the active trip `a`: the patch merged first, then
      the end time, the duration and the inactive flag, which the patch
      therefore cannot override. The clock is read twice: once for the end
      time (`endedAt`) and once more for the duration (`measuredAt`), which is
      measured from `a`'s own start time. */
  function Complete(a: Trip, p: TripPatch, endedAt: int, measuredAt: int): (c: Trip)
    ensures c.endTime == Some(endedAt)
    ensures c.duration == Some(RoundMinutes(measuredAt - a.startTime))
    ensures !c.isActive
  {
    Overlay(a, p).(endTime := Some(endedAt), duration := Some(RoundMinutes(measuredAt - a.startTime)), isActive := false)
  }

  /** `endTrip(patch)`: with no active trip, nothing changes and the result is
      absent; otherwise the completed trip is put at the front of the list and
      the active slot is cleared. */
  function EndTrip(s: Store, p: TripPatch, endedAt: int, measuredAt: int): (r: (Store, Option<Trip>))
    ensures s.active.None? ==> r.0 == s && r.1.None?
    ensures s.active.Some? ==> r.1 == Some(Complete(s.active.value, p, endedAt, measuredAt))
    ensures s.active.Some? ==> r.0.trips == [r.1.value] + s.trips && r.0.active.None?
  {
    match s.active
    case None => (s, None)
    case Some(a) =>
      var c := Complete(a, p, endedAt, measuredAt);
      (Store([c] + s.trips, None), Some(c))
  }

  /** Every other field of the completed trip comes from the patch when the
      patch sets it and from the active trip otherwise. */
  lemma EndTripTakesPatch(s: Store, p: TripPatch, endedAt: int, measuredAt: int)
    requires s.active.Some?
    ensures
      var a := s.active.value;
      var c := EndTrip(s, p, endedAt, measuredAt).1.value;
      && c.id == (if p.id.Some? then p.id.value else a.id)
      && c.origin == (if p.origin.Some? then p.origin.value else a.origin)
      && c.destination == (if p.destination.Some? then p.destination.value else a.destination)
      && c.startTime == (if p.startTime.Some? then p.startTime.value else a.startTime)
      && c.distance == (if p.distance.Some? then p.distance.value else a.distance)
      && c.mode == (if p.mode.Some? then p.mode.value else a.mode)
      && c.purpose == (if p.purpose.Some? then p.purpose.value else a.purpose)
      && c.checkpoints == (if p.checkpoints.Some? then p.checkpoints.value else a.checkpoints)
      && c.notes == (if p.notes.Some? then p.notes.value else a.notes)
      && c.photos == (if p.photos.Some? then p.photos.value else a.photos)
  {
  }

  /** Whatever a patch says about the end time, the duration or the active
      flag has no effect on `endTrip`. */
  lemma EndTripIgnoresCompletionFields(s: Store, p: TripPatch, endedAt: int, measuredAt: int)
    ensures EndTrip(s, p, endedAt, measuredAt)
         == EndTrip(s, p.(endTime := None, duration := None, isActive := None), endedAt, measuredAt)
  {
  }

  /** A patch that moves the start time does not change the duration, which is
      measured from the start time the active trip had. */
  lemma EndTripDurationUsesOriginalStart(s: Store, p: TripPatch, endedAt: int, measuredAt: int)
    requires s.active.Some?
    ensures EndTrip(s, p, endedAt, measuredAt).1.value.duration == Some(RoundMinutes(measuredAt - s.active.value.startTime))
    ensures p.startTime.Some? ==> EndTrip(s, p, endedAt, measuredAt).1.value.startTime == p.startTime.value
  {
  }

  /** The checkpoint stored for `input` under `id` (`{ ...input, id }`). */
  function WithId(input: CheckpointInput, id: string): (c: Checkpoint)
    ensures c.id == id && c.name == input.name
    ensures c.latitude == input.latitude && c.longitude == input.longitude
    ensures c.timestamp == input.timestamp && c.note == input.note && c.photoUrl == input.photoUrl
  {
    Checkpoint(id, input.name, input.latitude, input.longitude, input.timestamp, input.note, input.photoUrl)
  }

  /** `addCheckpoint(input)`: with no active trip, nothing changes; otherwise
      exactly one checkpoint is appended to the active trip and nothing else
      in the store changes. */
  function AddCheckpoint(s: Store, input: CheckpointInput, id: string): (r: Store)
    ensures s.active.None? ==> r == s
    ensures r.trips == s.trips
    ensures r.active.Some? <==> s.active.Some?
    ensures s.active.Some? ==>
      var before := s.active.value.checkpoints;
      var after := r.active.value.checkpoints;
      && |after| == |before| + 1
      && after[..|before|] == before
      && after[|before|] == WithId(input, id)
      && r.active.value == s.active.value.(checkpoints := after)
  {
    match s.active
    case None => s
    case Some(a) => Store(s.trips, Some(a.(checkpoints := a.checkpoints + [WithId(input, id)])))
  }

  /** Every trip with id `id` gets the patch merged in; the others, the order
      and the length stay as they were. */
  function UpdateTrips(ts: seq<Trip>, id: string, p: TripPatch): (r: seq<Trip>)
    ensures |r| == |ts|
    ensures forall i :: 0 <= i < |ts| ==> r[i] == if ts[i].id == id then Overlay(ts[i], p) else ts[i]
    decreases |ts|
  {
    if ts == [] then []
    else
      var head := if ts[0].id == id then Overlay(ts[0], p) else ts[0];
      [head] + UpdateTrips(ts[1..], id, p)
  }

  /** `updateTrip(id, patch)` on the completed list; the active slot is untouched. */
  function UpdateTrip(s: Store, id: string, p: TripPatch): (r: Store)
    ensures r.active == s.active
    ensures |r.trips| == |s.trips|
    ensures forall i :: 0 <= i < |s.trips| && s.trips[i].id == id ==> r.trips[i] == Overlay(s.trips[i], p)
    ensures forall i :: 0 <= i < |s.trips| && s.trips[i].id != id ==> r.trips[i] == s.trips[i]
    ensures (forall i :: 0 <= i < |s.trips| ==> s.trips[i].id != id) ==> r == s
  {
    Store(UpdateTrips(s.trips, id, p), s.active)
  }

  /** `deleteTrip(id)`: exactly the trips with id `id` leave the completed list;
      the others keep their multiplicity and their relative order. */
  function DeleteTrip(s: Store, id: string): (r: Store)
    ensures r.active == s.active
    ensures Seqs.IsSubsequence(r.trips, s.trips)
    ensures forall t :: t in r.trips <==> t in s.trips && t.id != id
    ensures forall t :: multiset(r.trips)[t] == if t.id == id then 0 else multiset(s.trips)[t]
  {
    Seqs.FilterCounts(s.trips, (t: Trip) => t.id != id);
    Store(Seqs.Filter(s.trips, (t: Trip) => t.id != id), s.active)
  }

  /** When no completed trip has id `id`, deleting it changes nothing. */
  lemma DeleteMissingIsNoOp(s: Store, id: string)
    requires forall i :: 0 <= i < |s.trips| ==> s.trips[i].id != id
    ensures DeleteTrip(s, id) == s
  {
    Seqs.FilterKeepsAll(s.trips, (t: Trip) => t.id != id);
  }

  /** The index of the first trip with id `id`, if any. */
  function FirstIndexOf(ts: seq<Trip>, id: string): (r: Option<nat>)
    ensures r.Some? ==> r.value < |ts| && ts[r.value].id == id
    ensures r.Some? ==> forall j :: 0 <= j < r.value ==> ts[j].id != id
    ensures r.None? <==> forall j :: 0 <= j < |ts| ==> ts[j].id != id
    decreases |ts|
  {
    if ts == [] then None
    else if ts[0].id == id then Some(0)
    else
      match FirstIndexOf(ts[1..], id)
      case None => None
      case Some(k) => Some(k + 1)
  }

  /** `getTripById(id)`: the first completed trip with that id. The active
      trip is never consulted. */
  function GetTripById(s: Store, id: string): (r: Option<Trip>)
    ensures r.Some? ==> r.value in s.trips && r.value.id == id
    ensures r.Some? ==> exists i :: 0 <= i < |s.trips| && s.trips[i] == r.value && (forall j :: 0 <= j < i ==> s.trips[j].id != id)
    ensures r.None? <==> forall t :: t in s.trips ==> t.id != id
  {
    match FirstIndexOf(s.trips, id)
    case None => None
    case Some(i) => Some(s.trips[i])
  }

  /** The lookup depends only on the completed list: an active trip whose id is
      not among the completed ones is not found. */
  lemma LookupIgnoresActive(s: Store)
    requires s.active.Some?
    requires forall t :: t in s.trips ==> t.id != s.active.value.id
    ensures GetTripById(s, s.active.value.id).None?
  {
  }

  /** The shape every trip has in a store reached through the operations: the
      active trip is flagged active and has no end time or duration; every
      completed trip is flagged inactive and has both. */
  predicate WellFormed(s: Store) {
    && (s.active.Some? ==> s.active.value.isActive && s.active.value.endTime.None? && s.active.value.duration.None?)
    && (forall t :: t in s.trips ==> !t.isActive && t.endTime.Some? && t.duration.Some?)
  }

  /** A patch that keeps a completed trip completed. */
  predicate KeepsCompleted(p: TripPatch) {
    p.isActive != Some(true) && p.endTime != Some(None) && p.duration != Some(None)
  }

  lemma StartTripPreservesWellFormed(s: Store, origin: string, id: string, now: int)
    requires WellFormed(s)
    ensures WellFormed(StartTrip(s, origin, id, now).0)
  {
  }

  lemma EndTripPreservesWellFormed(s: Store, p: TripPatch, endedAt: int, measuredAt: int)
    requires WellFormed(s)
    ensures WellFormed(EndTrip(s, p, endedAt, measuredAt).0)
  {
  }

  lemma AddCheckpointPreservesWellFormed(s: Store, input: CheckpointInput, id: string)
    requires WellFormed(s)
    ensures WellFormed(AddCheckpoint(s, input, id))
  {
  }

  lemma DeleteTripPreservesWellFormed(s: Store, id: string)
    requires WellFormed(s)
    ensures WellFormed(DeleteTrip(s, id))
  {
  }

  lemma UpdateTripPreservesWellFormed(s: Store, id: string, p: TripPatch)
    requires WellFormed(s)
    requires KeepsCompleted(p)
    ensures WellFormed(UpdateTrip(s, id, p))
  {
    var r := UpdateTrip(s, id, p);
    forall t | t in r.trips
      ensures !t.isActive && t.endTime.Some? && t.duration.Some?
    {
      var i :| 0 <= i < |r.trips| && r.trips[i] == t;
      assert s.trips[i] in s.trips;
    }
  }

  /** `updateTrip` accepts any patch: one that sets the active flag puts an
      active trip into the completed list. */
  lemma UpdateTripCanReactivate(s: Store, id: string)
    requires |s.trips| > 0 && s.trips[0].id == id
    ensures UpdateTrip(s, id, EmptyPatch.(isActive := Some(true))).trips[0].isActive
  {
  }

  /** A start followed by an end with an empty patch gives a completed trip
      that keeps the origin and the defaults, ended at the first reading and
      timed by the second; measured at the start instant it lasts zero
      minutes. */
  lemma StartThenEnd(s: Store, origin: string, id: string, now: int, endedAt: int, measuredAt: int)
    ensures
      var c := EndTrip(StartTrip(s, origin, id, now).0, EmptyPatch, endedAt, measuredAt).1;
      && c.Some?
      && c.value.origin == origin && c.value.destination == "" && c.value.id == id
      && c.value.startTime == now && c.value.endTime == Some(endedAt)
      && c.value.duration == Some(RoundMinutes(measuredAt - now))
      && (measuredAt == now ==> c.value.duration == Some(0))
      && !c.value.isActive
  {
  }

  /** After `endTrip` the completed trip is what `getTripById` finds for its id. */
  lemma EndThenLookup(s: Store, p: TripPatch, endedAt: int, measuredAt: int)
    requires s.active.Some?
    ensures
      var (s', c) := EndTrip(s, p, endedAt, measuredAt);
      GetTripById(s', c.value.id) == c
  {
    var (s', c) := EndTrip(s, p, endedAt, measuredAt);
    assert s'.trips[0] == c.value;
  }

  /** Appends the inputs one by one, the `k`-th under the `k`-th id. */
  function AddCheckpoints(s: Store, inputs: seq<CheckpointInput>, ids: seq<string>): Store
    requires |inputs| == |ids|
    decreases |inputs|
  {
    if inputs == [] then s
    else AddCheckpoints(AddCheckpoint(s, inputs[0], ids[0]), inputs[1..], ids[1..])
  }

  /** Checkpoints are kept in the order they were added. */
  lemma {:induction false} AddCheckpointsAppends(s: Store, inputs: seq<CheckpointInput>, ids: seq<string>)
    requires s.active.Some?
    requires |inputs| == |ids|
    ensures
      var r := AddCheckpoints(s, inputs, ids);
      && r.active.Some?
      && r.trips == s.trips
      && r.active.value.checkpoints ==
           s.active.value.checkpoints + seq(|inputs|, k requires 0 <= k < |inputs| => WithId(inputs[k], ids[k]))
    decreases |inputs|
  {
    if inputs != [] {
      var s1 := AddCheckpoint(s, inputs[0], ids[0]);
      AddCheckpointsAppends(s1, inputs[1..], ids[1..]);
      var added := seq(|inputs|, k requires 0 <= k < |inputs| => WithId(inputs[k], ids[k]));
      var rest := seq(|inputs| - 1, k requires 0 <= k < |inputs| - 1 => WithId(inputs[1..][k], ids[1..][k]));
      assert added == [WithId(inputs[0], ids[0])] + rest;
    }
  }

  /** Start, add checkpoints, end: the completed trip carries exactly the added
      checkpoints, in the order added. */
  lemma StartAddEnd(s: Store, origin: string, id: string, start: int,
                    inputs: seq<CheckpointInput>, ids: seq<string>, endedAt: int, measuredAt: int)
    requires |inputs| == |ids|
    ensures
      var s1 := AddCheckpoints(StartTrip(s, origin, id, start).0, inputs, ids);
      var c := EndTrip(s1, EmptyPatch, endedAt, measuredAt).1;
      && c.Some?
      && |c.value.checkpoints| == |inputs|
      && forall k :: 0 <= k < |inputs| ==> c.value.checkpoints[k] == WithId(inputs[k], ids[k])
  {
    AddCheckpointsAppends(StartTrip(s, origin, id, start).0, inputs, ids);
  }
}

=== FILE: trip_types.dfy ===
/** The trip data model: checkpoints, trips, the two closed enumerations of
    transport mode and trip purpose, and their display labels.

    Times are integer milliseconds since the epoch; coordinates and distances
    (kilometres) are reals; durations are whole minutes. */
module TripTypes {

  /** An optional value, standing for a field that may be absent (`undefined`). */
  datatype Option<T> = None | Some(value: T) {
    /** The value when present, `default` otherwise. */
    function GetOr(default: T): T {
      match this
      case Some(v) => v
      case None => default
    }
  }

  /** The ten transport modes a trip can be recorded with. */
  datatype TripMode = Car | Bus | Train | Metro | Bike | Walk | Auto | Taxi | Flight | OtherMode

  /** The eight reasons a trip can be taken for. */
  datatype TripPurpose = Work | Education | Shopping | Leisure | Healthcare | Social | Errands | OtherPurpose

  /** A point of interest logged while a trip is active. */
  datatype Checkpoint = Checkpoint(
    id: string,
    name: string,
    latitude: real,
    longitude: real,
    timestamp: int,
    note: Option<string>,
    photoUrl: Option<string>)

  /** A journey: active while `isActive`, completed otherwise. */
  datatype Trip = Trip(
    id: string,
    origin: string,
    destination: string,
    startTime: int,
    endTime: Option<int>,
    duration: Option<int>,     // minutes
    distance: Option<real>,    // kilometres
    mode: TripMode,
    purpose: TripPurpose,
    checkpoints: seq<Checkpoint>,
    notes: string,
    photos: seq<string>,
    isActive: bool)

  /** Every transport mode, in declaration order. */
  const AllModes: seq<TripMode> := [Car, Bus, Train, Metro, Bike, Walk, Auto, Taxi, Flight, OtherMode]

  /** Every trip purpose, in declaration order. */
  const AllPurposes: seq<TripPurpose> :=
    [Work, Education, Shopping, Leisure, Healthcare, Social, Errands, OtherPurpose]

  /** No element occurs twice in `s`. */
  predicate Distinct<T(==)>(s: seq<T>) {
    forall i, j :: 0 <= i < j < |s| ==> s[i] != s[j]
  }

  lemma AllModesEnumerates()
    ensures |AllModes| == 10
    ensures Distinct(AllModes)
    ensures forall m: TripMode :: m in AllModes
  {
    forall m: TripMode ensures m in AllModes {
      var i := match m
        case Car => 0 case Bus => 1 case Train => 2 case Metro => 3 case Bike => 4
        case Walk => 5 case Auto => 6 case Taxi => 7 case Flight => 8 case OtherMode => 9;
      assert AllModes[i] == m;
    }
  }

  lemma AllPurposesEnumerates()
    ensures |AllPurposes| == 8
    ensures Distinct(AllPurposes)
    ensures forall p: TripPurpose :: p in AllPurposes
  {
    forall p: TripPurpose ensures p in AllPurposes {
      var i := match p
        case Work => 0 case Education => 1 case Shopping => 2 case Leisure => 3
        case Healthcare => 4 case Social => 5 case Errands => 6 case OtherPurpose => 7;
      assert AllPurposes[i] == p;
    }
  }

  /** The label shown for a transport mode. */
  function ModeLabel(m: TripMode): string {
    match m
    case Car => "Car"
    case Bus => "Bus"
    case Train => "Train"
    case Metro => "Metro"
    case Bike => "Bicycle"
    case Walk => "Walking"
    case Auto => "Auto Rickshaw"
    case Taxi => "Taxi/Cab"
    case Flight => "Flight"
    case OtherMode => "Other"
  }

  /** The label shown for a trip purpose. */
  function PurposeLabel(p: TripPurpose): string {
    match p
    case Work => "Work/Office"
    case Education => "Education"
    case Shopping => "Shopping"
    case Leisure => "Leisure/Recreation"
    case Healthcare => "Healthcare"
    case Social => "Social Visit"
    case Errands => "Errands"
    case OtherPurpose => "Other"
  }

  /** Distinct modes have distinct labels, and no label is empty. */
  lemma ModeLabelInjective(a: TripMode, b: TripMode)
    ensures ModeLabel(a) == ModeLabel(b) <==> a == b
    ensures |ModeLabel(a)| > 0
  {
  }

  /** Distinct purposes have distinct labels, and no label is empty. */
  lemma PurposeLabelInjective(a: TripPurpose, b: TripPurpose)
    ensures PurposeLabel(a) == PurposeLabel(b) <==> a == b
    ensures |PurposeLabel(a)| > 0
  {
  }
}
